=== FILE: README.md ===
# A model of rclone's VFS disk cache registry

This project models the registry of rclone's VFS disk cache
(`vfs/vfscache/cache.go`) and proves properties of it. The registry sits
below the virtual filesystem. It keeps remote files on local disk, indexes
them in memory under a canonical name, and keeps the disk usage bounded by
two sweeps: one by age and one by size quota. Files that are open are never
evicted.

The model is sequential: the registry lock and the per-item locks are left
out. The modules follow the parts of the source:

- `Text` (text.dfy): `strings.Split` and `strings.Join` on a separator
  character, with their round trip.
- `Paths` (paths.dfy): the registry key `clean`, and Go's lexical
  `filepath.Clean` written as a left-to-right fold over `/`-separated
  segments. It also holds `toOSPath` on the segments of the cache root and
  the Windows normalisation of the remote root.
- `Fingerprint` (fingerprint.dfy): `objectFingerprint` as a pure function of
  the size, an optional modification-time text and the outcome of the hash
  lookup.
- `Disk` (disk.dfy): the local disk as a map from OS paths to nodes
  (regular file with an identity, directory, anything else). The map is
  kept a tree: every proper ancestor of a present path is a directory.
  `os.Stat` fails with an error that is not "does not exist" when an
  ancestor is not a directory. The low-level `rename` is a method over this
  map.
- `Eviction` (eviction.dfy): the arithmetic of the sweeps on plain values.
  This covers the order-independent sum of a size map, list sums, and
  `EvictCount`, the number of oldest-first candidates the quota sweep
  evicts.
- `Registry` (registry.dfy): `Item` is a class, because pointer identity
  matters to `put` and `Rename`. `Cache` is a class whose `items` map and
  `used` counter the methods update in place. The same module holds the
  sort of the candidates and the specification functions of the sweeps.

Many properties in `Registry` assume the invariant `Keyed`: every entry sits
under the name its item carries. The quota sweep deletes by the item's name,
not by the map key, so it needs this. The invariant is not a precondition.
The methods that can break it promise it only conditionally:
- `Cache.Rename` keeps it only when the name given is already canonical.
- The sweeps keep it, and their accounting holds, when it held before.

Two behaviours of the code look unintended, and the model keeps them as
written:

- **The quota sweep's stop test is strict.** The function comment
  promises to remove the files that are over quota (cache.go:439-440), and
  the sweep is skipped when `used < quota` (cache.go:469). Inside the loop,
  though, it stops only once `used < quota` (cache.go:488), so at
  `used == quota` it goes on evicting.
  With two closed 100-byte files and a quota of 100, both are evicted.
  `Eviction.QuotaStopIsStrict` states this.
- **`reload` walks the content root twice.** The function comment says
  reload loads the metadata files (cache.go:357). The second pass names its
  path `osPathMeta` and reports "failed to walk meta cache", yet it walks
  `c.root` again (cache.go:368). The `fcacheMeta` filesystem of `New` is
  built on the content root too (cache.go:63).

Other behaviour of the code that the model keeps as written:
- `Rename` looks the item up by the canonical name but re-keys the map under
  the names exactly as given. `Rename(a, a)` therefore deletes the entry.
- `reload` registers every walked entry that is not a directory, including
  symbolic links.
- `clean` keeps a leading `..`: `clean("../a")` is `"../a"`.
- `put`'s comment says it must be called with the lock held, yet it takes
  the lock itself. This does not matter in a sequential model.

## Model

| member | source | states |
|---|---|---|
| Paths.Clean | vfs/vfscache/cache.go:124-131 | the registry key: trim the slashes, clean lexically, use "" for "." and "/". Its properties are CleanIsJoin, CleanOfRoot, CleanOfSlashes, CleanHasNoOuterSlash and CleanIdempotent |
| Paths.LexicalClean | vfs/vfscache/cache.go:126 | filepath.Clean on a '/'-separated path, as a fold over its segments; CleanIsJoin and OsPathIsJoin carry its properties |
| Paths.TrimLeft | vfs/vfscache/cache.go:125 | the leading half of strings.Trim: a suffix of the name that does not start with '/', and everything dropped before it is '/' |
| Paths.TrimRight | vfs/vfscache/cache.go:125 | the trailing half of strings.Trim: a prefix of the name that does not end with '/', and everything dropped after it is '/' |
| Paths.TrimSlashes | vfs/vfscache/cache.go:125 | strings.Trim(name, "/"): the result has no slash at either end; TrimSlashesIsInfix states that only the outer slashes go |
| Paths.TrimSlashesIsInfix | vfs/vfscache/cache.go:125 | the trimmed name is the infix of the name after its leading slashes, and every character cut off at either end is a '/' |
| Paths.OsPath | vfs/vfscache/cache.go:134-136 | toOSPath on the segments of the cache root; OsPathIsJoin ties it to filepath.Join and OsPathOfClean to the key |
| Paths.CacheRootPart | vfs/vfscache/cache.go:47-53 | the remote root as placed under the cache directory; CacheRootPartOnWindows, CacheRootPartPlain and CacheRootPartLongPath carry its properties |
| Paths.FromSlash | vfs/vfscache/cache.go:47 | filepath.FromSlash keeps the length and, for a separator other than '/', leaves no '/' behind; FromSlashKeepsOthers and FromSlashReplacesSlashes pin it position by position |
| Paths.FromSlashKeepsOthers | vfs/vfscache/cache.go:47 | every character other than '/' stays at its position |
| Paths.FromSlashReplacesSlashes | vfs/vfscache/cache.go:47 | every '/' becomes the separator at its position |
| Paths.FromSlashUnix | vfs/vfscache/cache.go:47 | with '/' as the separator the conversion is the identity |
| Paths.CacheRootPartOffWindows | vfs/vfscache/cache.go:47-53 | off Windows the remote root is used unchanged |
| Paths.FromSlashKeepsAbsent | vfs/vfscache/cache.go:47 | a character absent from the path, other than the separator, stays absent after the conversion |
| Paths.FromSlashAppend | vfs/vfscache/cache.go:47 | the conversion distributes over concatenation, so a prefix converts on its own |
| Paths.DeleteAll | vfs/vfscache/cache.go:52 | strings.Replace with "" for one character: the character is gone and the string is no longer; DeleteAllAppend and DeleteAllKeeps pin it |
| Paths.DeleteAllAppend | vfs/vfscache/cache.go:52 | deletion distributes over concatenation, so the kept characters stay in their order |
| Paths.CleanIsJoin | vfs/vfscache/cache.go:124-131 | the key is the join of its segments, and those segments are canonical: none is empty or ".", none holds a slash, and ".." appears only as a leading run |
| Paths.CleanOfRoot | vfs/vfscache/cache.go:127-129 | "", "/" and "." all clean to the root key "" |
| Paths.CleanOfSlashes | vfs/vfscache/cache.go:124-131 | any string made only of slashes cleans to "" |
| Paths.CleanHasNoOuterSlash | vfs/vfscache/cache.go:124-131 | a key is "" or neither begins nor ends with '/' |
| Paths.CleanIdempotent | vfs/vfscache/cache.go:124-131 | cleaning a key gives the same key |
| Paths.OsPathIsJoin | vfs/vfscache/cache.go:134-136 | for a canonical rooted cache root, the segment-level OsPath is exactly filepath.Join(root, name) |
| Paths.OsPathOfClean | vfs/vfscache/cache.go:134-136 | a name and its key map to the same cache path, so the registry and the disk agree on where an entry lives |
| Paths.CacheRootPartOnWindows | vfs/vfscache/cache.go:47-53 | on Windows the cache root never contains ':' and keeps every other character of the de-prefixed native root, with its multiplicity |
| Paths.CacheRootPartPlain | vfs/vfscache/cache.go:47-53 | a root with no ':' that does not start with the long-path prefix `\\?` once its separators are native only gets native separators |
| Paths.CacheRootPartLongPath | vfs/vfscache/cache.go:49-52 | a root in the long-path form `//?...` loses the prefix, then its colons |
| Paths.DeleteAllKeeps | vfs/vfscache/cache.go:52 | deleting ':' keeps the count of every other character |
| Paths.DeleteAllAbsent | vfs/vfscache/cache.go:52 | deleting ':' changes the string if and only if it contains ':' |
| Fingerprint.ObjectFingerprint | vfs/vfscache/cache.go:104-121 | objectFingerprint; FingerprintIsJoin, FingerprintDetectsChange and HashErrorIsSwallowed carry its properties |
| Fingerprint.Digits | vfs/vfscache/cache.go:107 | the decimal digits of a natural number: at least one, all digits, no leading zero |
| Fingerprint.DecimalRoundTrip | vfs/vfscache/cache.go:107 | the size field written with %d reads back as the same integer, negative sizes included |
| Fingerprint.FingerprintIsJoin | vfs/vfscache/cache.go:104-121 | the fingerprint is the ','-join of the size, then the modification time if supported, then the hash if the lookup succeeded |
| Fingerprint.FingerprintDetectsChange | vfs/vfscache/cache.go:104-121 | with comma-free texts and a fixed precision setting, two fingerprints are equal if and only if size, modification time and hash text are all equal |
| Fingerprint.HashErrorIsSwallowed | vfs/vfscache/cache.go:114-119 | a failed hash lookup gives the same fingerprint as no common hash type |
| Disk.Rename | vfs/vfscache/cache.go:257-292 | every row of the decision table, on a disk that is a tree and stays one. A source that does not exist is a no-op. A failed stat of either path (an injected fault, or an ancestor that is not a directory), a non-regular source or destination, or a failed MkdirAll each give their own error and change nothing. The same file is a no-op. Otherwise os.Rename is called: if it fails the error is RenameFailed, and if not the source path is gone and the destination holds the source file. Besides the two paths, only new parent directories of the destination can appear |
| Disk.Stat | vfs/vfscache/cache.go:258-274 | the os.Stat calls of rename, defined on the tree; StatOfPresent, StatOfAbsent, StatBelowNonDir and Disk.Rename carry its properties |
| Disk.StatOfPresent | vfs/vfscache/cache.go:258-262 | on a tree, a present path with no injected fault is found, with its own node |
| Disk.StatOfAbsent | vfs/vfscache/cache.go:270-274 | on a tree, an absent path whose parent is a directory is reported as not existing unless a fault is injected, so rename goes on to create the parent |
| Disk.StatBelowNonDir | vfs/vfscache/cache.go:270-274 | every path strictly below a node that is not a directory fails to stat, whatever the faults, and is never reported as not existing |
| Disk.DestinationBelowFile | vfs/vfscache/cache.go:270-274 | with the regular file [a] on disk, the stat of [a, x] is an error rather than "does not exist", so rename reports that it failed to stat the destination |
| Disk.WithParentDirs | vfs/vfscache/cache.go:275-279 | MkdirAll of the destination's parent keeps the disk a tree and puts a directory at every proper ancestor of the destination |
| Disk.MovedWellFormed | vfs/vfscache/cache.go:288-291 | moving a regular file to a path below directories only, over at most a regular file, keeps the disk a tree |
| Eviction.Sum | vfs/vfscache/cache.go:453-459 | the total of a size map; SumRemove shows that it does not depend on the order of summation |
| Eviction.EvictCount | vfs/vfscache/cache.go:486-491 | how many sorted candidates the quota loop evicts, never more than there are; EvictCountIsFirstStop, EvictCountReachesQuota and QuotaStopIsStrict carry its properties |
| Eviction.SumRemove | vfs/vfscache/cache.go:453-459 | the total of a size map does not depend on the order the map yields its entries in |
| Eviction.SumRemoveAll | vfs/vfscache/cache.go:486-497 | deleting a list of distinct keys lowers the total by exactly their sizes |
| Eviction.EvictCountIsFirstStop | vfs/vfscache/cache.go:486-491 | the sweep evicts exactly the candidates before the first point where the running total is below the quota, or all of them |
| Eviction.EvictCountReachesQuota | vfs/vfscache/cache.go:486-491 | after the sweep the total is strictly below the quota unless every candidate was evicted |
| Eviction.QuotaStopIsStrict | vfs/vfscache/cache.go:488 | two closed 100-byte files at quota 100 are both evicted; at quota 101 one is kept |
| Registry.Item.constructor | vfs/vfscache/cache.go:174 | a new item carries the name it is created for and is not open |
| Registry.Item.Rename | vfs/vfscache/cache.go:297-301 | the item's rename outcome is returned; on success the item carries the new name and otherwise keeps its old one |
| Registry.Less | vfs/vfscache/cache.go:425-437 | cacheItems.Less: a different index and a strictly earlier access time; LessIsStrictWeakOrder carries its properties |
| Registry.LessIsStrictWeakOrder | vfs/vfscache/cache.go:425-437 | Less is irreflexive, asymmetric and transitive, and incomparability is transitive, as sort.Sort requires |
| Registry.InsertKeepsOrder | vfs/vfscache/cache.go:484 | placing an item after every item accessed no later than it, and before the rest, keeps the list oldest-first |
| Registry.InsertByATime | vfs/vfscache/cache.go:484 | inserting into an oldest-first list keeps it oldest-first and adds exactly the one item |
| Registry.SortByATime | vfs/vfscache/cache.go:484 | the sorted candidates are a permutation of the input, in oldest-first order; ties may come out in any order |
| Registry.SurvivorsKeepOpen | vfs/vfscache/cache.go:395-404 | the age sweep never drops an open entry, and it keeps its item |
| Registry.SurvivorsIdempotent | vfs/vfscache/cache.go:388-406 | a second age sweep with the same cutoff removes nothing more |
| Registry.SurvivorsMonotone | vfs/vfscache/cache.go:391-400 | a later cutoff, that is a shorter maximum age, keeps no more entries |
| Registry.SurvivorsKeyed | vfs/vfscache/cache.go:401-402 | the age sweep deletes under the map key, so every entry still sits under its own name |
| Registry.EvictedTotals | vfs/vfscache/cache.go:486-497 | under Keyed, evicting any prefix of the sorted closed entries deletes only closed entries, keeps Keyed, and lowers the total by exactly the evicted sizes |
| Registry.ReKeyed | vfs/vfscache/cache.go:303-308 | re-keying moves the item from name to newName, drops the entry when the two are equal, changes nothing when name is absent, and leaves every other key as it was |
| Registry.ReKeyedKeyed | vfs/vfscache/cache.go:303-308 | re-keying an item that now carries newName restores Keyed |
| Registry.NonDirKeysClean | vfs/vfscache/cache.go:358-378 | every key reload registers is already canonical |
| Registry.Cache.constructor | vfs/vfscache/cache.go:70-80 | a new cache has an empty registry with no bytes used |
| Registry.Cache.GetLocked | vfs/vfscache/cache.go:170-178 | for a present key: that same item, found, map unchanged. Otherwise: one fresh unopened item under the key, not found, every other key kept. Keyed is kept |
| Registry.Cache.Get | vfs/vfscache/cache.go:222-228 | the same as GetLocked, on the canonical form of the name |
| Registry.Cache.GetItem | vfs/vfscache/cache.go:235-238 | afterwards the canonical key holds the returned item, inserted fresh only if it was absent |
| Registry.Cache.Put | vfs/vfscache/cache.go:187-198 | afterwards the canonical key holds the item, nothing else changes, and the previous occupant is returned only if it was a different item (null otherwise) |
| Registry.Cache.Opens | vfs/vfscache/cache.go:203-214 | 0 for an absent name, the item's open count otherwise; the map is not touched |
| Registry.Cache.Exists | vfs/vfscache/cache.go:243-254 | Exists: os.Stat of the cache path succeeds and reports a regular file; the registry is not consulted. ExistsIgnoresSpelling carries its property |
| Registry.Cache.ExistsIgnoresSpelling | vfs/vfscache/cache.go:243-254 | Exists (the cache path is a regular file that can be stat'ed) gives the same answer for a name and its key |
| Registry.Cache.Rename | vfs/vfscache/cache.go:295-312 | the item's error is returned and then the map is only as get left it. On success the looked-up item carries newName and the map is re-keyed under the raw names. No other item is renamed. Keyed is kept when the name is canonical |
| Registry.Cache.ReKey | vfs/vfscache/cache.go:303-308 | the map becomes ReKeyed of the old map |
| Registry.Cache.RegisterEntry | vfs/vfscache/cache.go:359-363 | a non-directory entry adds its canonical key, a directory adds nothing, and existing entries keep their items |
| Registry.Cache.RegisterWalk | vfs/vfscache/cache.go:358-365 | one pass adds exactly the canonical keys of the non-directories walked, each as a new closed item under its own name; existing entries keep their items |
| Registry.Cache.Reload | vfs/vfscache/cache.go:358-378 | the first walk failure is reported as the content or metadata error. The keys added are those of the passes that ran. Keyed and canonical keys are kept, and walking the same tree a second time adds nothing |
| Registry.Cache.PurgeOld | vfs/vfscache/cache.go:388-406 | the map becomes exactly the survivors; the items handed to remove are exactly the expired entries, each once |
| Registry.Cache.TotalSize | vfs/vfscache/cache.go:453-459 | the loop's total is the sum of all entry sizes |
| Registry.Cache.UpdateUsed | vfs/vfscache/cache.go:449-461 | used becomes the sum of all entry sizes |
| Registry.Cache.CollectClosed | vfs/vfscache/cache.go:477-483 | the candidates are the closed entries, each exactly once |
| Registry.Cache.EvictOldest | vfs/vfscache/cache.go:486-497 | the evicted items are the first EvictCount of the sorted list; used drops by their sizes and the map loses their names |
| Registry.Cache.PurgeOverQuota | vfs/vfscache/cache.go:463-498 | used is first recomputed. With no positive quota or with usage below it nothing is removed. Otherwise the evicted items are the EvictCount-prefix of an oldest-first permutation of the closed entries, used drops by their sizes, and their names leave the map. Under Keyed, used then equals the sum of what is left and every open entry stays |
| Registry.Cache.Clean | vfs/vfscache/cache.go:501-525 | nothing happens when the cache root is missing. Otherwise the items handed over as too old are exactly the expired entries, each once. The quota sweep with maxSize then runs on the survivors S: with no positive quota or usage of S below it, S is what remains. Otherwise the EvictCount-prefix of an oldest-first permutation of the closed entries of S is evicted, used is the total of S less their sizes, and S loses their names. Under Keyed the invariant, the exact total and every open entry are kept |

## Left out

- Concurrency: the registry lock, the per-item locks and the cleaner goroutine with its ticker (cache.go:530-549). The model is single-threaded.
- `New` (cache.go:46-100) is modelled only as far as the Windows root normalisation and the empty registry. The config directory joins, `fscache.Get`, `operations.CommonHash`, the initial `mkdir` and `purgeEmptyDirs` are left out, because they are configuration and foreign calls.
- `mkdir` (cache.go:146-160) and `toOSPathMeta` (cache.go:140-142) are left out. They only create directories through `os.MkdirAll` or mirror `toOSPath`. `Disk.Rename` models the parent creation it needs as `Disk.WithDirs`.
- `walk` (cache.go:337-355): `filepath.Walk` and `filepath.Rel` are left out. `Cache.Reload` takes each pass as an abstract list of (relative name, is-directory) entries, plus the error that stopped it.
- `purgeEmptyDirs`, `CleanUp`, `copyObj` and `Check` are left out: they are calls into `operations`, `os.RemoveAll` and `Item` methods that are not part of this model. The commented-out `Fetch` is not code.
- `Remove` and `SetModTime` are left out: beyond `get`, they only forward to `item.remove` and `item.setModTime`.
- The item (item.go) is not part of this model. An item's size, access time and open count are constants here, because cache.go only reads them. A new item promises only its name and that it is not open. `item.rename` and `item._remove` are stubs: the rename outcome is a parameter, and the removed items are returned to the caller.
- Registry.Item.Rename: assumes that a failed `item.rename` leaves the item's name as it was. item.go is not part of this model. `Registry.Cache.Rename` relies on this assumption for its promise that Keyed is kept on the error path.
- Disk.Rename: `os.Stat` failures other than "does not exist" and "not a directory", and failures of `os.MkdirAll` and `os.Rename`, are injected faults, not derived from the disk. Symbolic links are "other" nodes and are not followed.
- `Registry.Cache.Reload`: does not promise that the items it registers are fresh objects, only that they are closed and carry their key.
- Time: `time.Now`, `time.Duration` and `time.Time` are integers. The clock is the parameter `now`, so the saturation of `Add(-maxAge)` is not modelled. The fingerprint takes the modification time as ready-made text, so `fmt`'s `%v` formatting of times and hashes is not modelled.
- `used` and the sizes are unbounded integers, so int64 overflow of the running total is not modelled.
- `sort.Sort` is modelled by an insertion sort on a sequence. The contract promises only a permutation in oldest-first order, not the source's in-place swap sequence or its order of ties.
- `filepath.Clean` and `filepath.Join` are modelled with `/` as the separator. The Windows volume-name rules are not modelled; only the root normalisation of `New` is.
- The `newObj` argument of `Rename`, all logging, and the statistics `clean` logs are left out.

=== FILE: disk.dfy ===
// The local disk as the cache sees it, and the low-level rename primitive of
// vfs/vfscache/cache.go (`rename`), which moves a cache file robustly: a
// missing source is not an error, only regular files are moved, and a
// destination that already is the source file is left alone.

module Disk {
  import opened Wrappers

  /** An absolute OS path, as its list of segments. */
  type Path = seq<string>

  /** What os.Stat reports for an existing path. Files that are hard links
      of each other share their id (os.SameFile). */
  datatype Node = Regular(id: nat) | Dir | Other

  type FileSystem = map<Path, Node>

  /** The disk is a tree: every proper ancestor of a present path is a
      directory. */
  predicate WellFormed(fs: FileSystem)
  {
    forall p, i :: p in fs && 1 <= i < |p| ==> p[..i] in fs && fs[p[..i]] == Dir
  }

  /** The failures the operating system may return that are not decided by
      the shape of the tree: os.Stat failing for a reason such as a denied
      permission, os.MkdirAll failing, os.Rename failing. */
  datatype Io = Io(statFails: set<Path>, mkdirFails: bool, renameFails: bool)

  datatype MoveError =
    | StatSourceFailed
    | NonRegularSource
    | StatDestinationFailed
    | MakeParentFailed
    | NonRegularDestination
    | RenameFailed

  /** What os.Stat reports: the node found, an error for which os.IsNotExist
      holds, or any other error. */
  datatype StatResult = Found(node: Node) | NotExist | StatError

  /** Some proper ancestor of `p` exists and is not a directory. os.Stat(p)
      then fails with ENOTDIR, which is not a "does not exist" error. */
  predicate Blocked(fs: FileSystem, p: Path)
  {
    exists i :: 1 <= i < |p| && p[..i] in fs && fs[p[..i]] != Dir
  }

  /** os.Stat(p). */
  function Stat(fs: FileSystem, io: Io, p: Path): StatResult
  {
    if p in io.statFails || Blocked(fs, p) then StatError
    else if p !in fs then NotExist
    else Found(fs[p])
  }

  /** On a tree, os.Stat fails on a present path only for an injected
      reason. */
  lemma StatOfPresent(fs: FileSystem, io: Io, p: Path)
    requires WellFormed(fs) && p in fs && p !in io.statFails
    ensures Stat(fs, io, p) == Found(fs[p])
  {
    assert !Blocked(fs, p);
  }

  /** On a tree, os.Stat reports "does not exist" for an absent path whose
      parent is a directory, unless a fault is injected. */
  lemma StatOfAbsent(fs: FileSystem, io: Io, p: Path)
    requires WellFormed(fs) && p !in fs && p !in io.statFails
    requires |p| >= 2 ==> p[..|p| - 1] in fs && fs[p[..|p| - 1]] == Dir
    ensures Stat(fs, io, p) == NotExist
  {
    forall i | 1 <= i < |p| && p[..i] in fs ensures fs[p[..i]] == Dir {
      var q := p[..|p| - 1];
      if i < |q| {
        assert q[..i] == p[..i];
      }
    }
  }

  /** Every path strictly below a node that is not a directory fails to
      stat (ENOTDIR), whatever the faults: it is never "does not exist". */
  lemma StatBelowNonDir(fs: FileSystem, io: Io, p: Path, q: Path)
    requires p in fs && fs[p] != Dir
    requires 1 <= |p| < |q| && q[..|p|] == p
    ensures Stat(fs, io, q) == StatError
  {
    assert Blocked(fs, q);
  }

  /** A destination below a regular file cannot be stat'ed: with the file
      [a] on disk, os.Stat of [a, x] is an error, not "does not exist". */
  lemma DestinationBelowFile()
    ensures var fs: FileSystem := map[["a"] := Regular(1), ["b"] := Regular(2)];
            Stat(fs, Io({}, false, false), ["a", "x"]) == StatError
  {
    var fs: FileSystem := map[["a"] := Regular(1), ["b"] := Regular(2)];
    StatBelowNonDir(fs, Io({}, false, false), ["a"], ["a", "x"]);
  }

  /** vfscommon.FindParent on an OS path: the directory holding it. */
  function Parent(p: Path): Path
  {
    if |p| == 0 then [] else p[..|p| - 1]
  }

  predicate IsPrefix(p: Path, q: Path)
  {
    |p| <= |q| && q[..|p|] == p
  }

  /** os.MkdirAll(dir): every missing ancestor of dir, and dir itself,
      becomes a directory; existing paths are left as they are. */
  function WithDirs(fs: FileSystem, dir: Path): (r: FileSystem)
    ensures forall p :: p in fs ==> p in r && r[p] == fs[p]
    ensures forall p :: p in r && p !in fs ==> r[p] == Dir && 1 <= |p| && IsPrefix(p, dir)
    ensures forall i :: 1 <= i <= |dir| ==> dir[..i] in r
  {
    var created := set i | 1 <= i <= |dir| && dir[..i] !in fs :: dir[..i];
    var r := map p | p in fs.Keys + created :: if p in fs then fs[p] else Dir;
    r
  }

  /** MkdirAll of the parent of a path whose ancestors are all directories
      or missing keeps the tree a tree, and leaves a directory at every
      proper ancestor of the path. */
  lemma WithParentDirs(fs: FileSystem, p: Path)
    requires WellFormed(fs) && p !in fs && !Blocked(fs, p)
    ensures var r := WithDirs(fs, Parent(p));
            WellFormed(r) && p !in r &&
            forall i :: 1 <= i < |p| ==> p[..i] in r && r[p[..i]] == Dir
  {
    var dir := Parent(p);
    var r := WithDirs(fs, dir);
    forall i | 1 <= i <= |dir| ensures dir[..i] in r && r[dir[..i]] == Dir {
      assert dir[..i] == p[..i];
    }
    forall q, i | q in r && 1 <= i < |q| ensures q[..i] in r && r[q[..i]] == Dir {
      if q !in fs {
        assert q == dir[..|q|];
        assert q[..i] == dir[..i];
      }
    }
    forall i | 1 <= i < |p| ensures p[..i] in r && r[p[..i]] == Dir {
      assert p[..i] == dir[..i];
    }
  }

  /** os.Rename(from, to): the node at `from` now sits at `to`, replacing
      whatever was there. */
  function Moved(fs: FileSystem, from: Path, to: Path): (r: FileSystem)
    requires from in fs
    ensures from != to ==> from !in r
    ensures to in r && r[to] == fs[from]
    ensures forall p :: p in fs && p != from && p != to ==> p in r && r[p] == fs[p]
    ensures forall p :: p in r ==> p in fs || p == to
  {
    (fs - {from})[to := fs[from]]
  }

  /** Moving a regular file to a path below directories only, replacing at
      most a regular file, keeps the tree a tree. */
  lemma MovedWellFormed(fs: FileSystem, from: Path, to: Path)
    requires WellFormed(fs) && from in fs && fs[from].Regular?
    requires forall i :: 1 <= i < |to| ==> to[..i] in fs && fs[to[..i]] == Dir
    requires to in fs ==> fs[to].Regular?
    ensures WellFormed(Moved(fs, from, to))
  {
    var r := Moved(fs, from, to);
    forall p, i | p in r && 1 <= i < |p| ensures p[..i] in r && r[p[..i]] == Dir {
      var q := p[..i];
      assert q in fs && fs[q] == Dir;
      assert q != from && q != to;
    }
  }

  /** os.Stat(p) succeeds and reports a regular file. */
  predicate IsRegularFile(fs: FileSystem, io: Io, p: Path)
  {
    Stat(fs, io, p).Found? && Stat(fs, io, p).node.Regular?
  }

  /** rename (cache.go:257-292). */
  method Rename(fs: FileSystem, io: Io, oldPath: Path, newPath: Path) returns (after: FileSystem, err: Option<MoveError>)
    requires WellFormed(fs)
    ensures WellFormed(after)
    // The decision table.
    ensures Stat(fs, io, oldPath) == NotExist ==> err == None && after == fs
    ensures Stat(fs, io, oldPath) == StatError ==> err == Some(StatSourceFailed) && after == fs
    ensures Stat(fs, io, oldPath).Found? && !fs[oldPath].Regular? ==>
              err == Some(NonRegularSource) && after == fs
    ensures IsRegularFile(fs, io, oldPath) && Stat(fs, io, newPath) == StatError ==>
              err == Some(StatDestinationFailed) && after == fs
    ensures IsRegularFile(fs, io, oldPath) && Stat(fs, io, newPath).Found? && !fs[newPath].Regular? ==>
              err == Some(NonRegularDestination) && after == fs
    ensures IsRegularFile(fs, io, oldPath) && IsRegularFile(fs, io, newPath) && fs[oldPath] == fs[newPath] ==>
              err == None && after == fs
    ensures IsRegularFile(fs, io, oldPath) && Stat(fs, io, newPath) == NotExist && io.mkdirFails ==>
              err == Some(MakeParentFailed) && after == fs
    // The working row: the parent exists or is made, and os.Rename is called.
    ensures IsRegularFile(fs, io, oldPath) &&
            ((Stat(fs, io, newPath) == NotExist && !io.mkdirFails) ||
             (IsRegularFile(fs, io, newPath) && fs[newPath] != fs[oldPath])) ==>
              (io.renameFails ==> err == Some(RenameFailed)) &&
              (!io.renameFails ==> err == None && oldPath !in after && newPath in after && after[newPath] == fs[oldPath])
    // What a successful move does.
    ensures err == None && after != fs ==>
              IsRegularFile(fs, io, oldPath) && oldPath != newPath &&
              oldPath !in after && newPath in after && after[newPath] == fs[oldPath]
    // On any error the source file has not moved.
    ensures err != None ==> (oldPath in fs <==> oldPath in after) && (oldPath in fs ==> after[oldPath] == fs[oldPath])
    ensures err != None ==> (newPath in fs <==> newPath in after) && (newPath in fs ==> after[newPath] == fs[newPath])
    // Nothing but the two paths changes, except for new parent directories of the destination.
    ensures forall p :: p in fs && p != oldPath && p != newPath ==> p in after && after[p] == fs[p]
    ensures forall p :: p in after && p !in fs ==>
              p == newPath || (after[p] == Dir && 1 <= |p| < |newPath| && IsPrefix(p, newPath))
  {
    after := fs;
    var source := Stat(fs, io, oldPath);
    if source.StatError? {
      return fs, Some(StatSourceFailed);
    }
    if source.NotExist? {
      return fs, None;
    }
    if !source.node.Regular? {
      return fs, Some(NonRegularSource);
    }
    var dest := Stat(fs, io, newPath);
    if dest.StatError? {
      return fs, Some(StatDestinationFailed);
    }
    if dest.NotExist? {
      var parent := Parent(newPath);
      if io.mkdirFails {
        return fs, Some(MakeParentFailed);
      }
      WithParentDirs(fs, newPath);
      after := WithDirs(after, parent);
    } else {
      if !dest.node.Regular? {
        return fs, Some(NonRegularDestination);
      }
      if source.node == dest.node {
        return fs, None;
      }
    }
    if io.renameFails {
      return after, Some(RenameFailed);
    }
    MovedWellFormed(after, oldPath, newPath);
    after := Moved(after, oldPath, newPath);
    err := None;
  }
}

=== FILE: eviction.dfy ===
// The arithmetic behind the cache's eviction sweeps
// (vfs/vfscache/cache.go updateUsed and _purgeOverQuota), stated on plain
// values: the total of a map of sizes, the total of a list of sizes, and how
// many of the oldest-first candidates the quota sweep evicts.

module Eviction {

  /** Some element of a non-empty set; used only to fold over a map whose
      iteration order the source leaves unspecified. */
  ghost function Pick(s: set<string>): (x: string)
    requires s != {}
    ensures x in s
  {
    var x :| x in s; x
  }

  /** The sum of the values of a map, whatever order they are added in. */
  ghost function Sum(m: map<string, int>): int
    decreases |m|
  {
    if |m| == 0 then 0
    else
      var k := Pick(m.Keys);
      assert (m - {k}).Keys == m.Keys - {k};
      m[k] + Sum(m - {k})
  }

  /** Any entry can be taken out first: the order of summation does not matter. */
  lemma {:induction false} SumRemove(m: map<string, int>, k: string)
    requires k in m
    ensures Sum(m) == m[k] + Sum(m - {k})
    decreases |m|
  {
    var j := Pick(m.Keys);
    assert (m - {j}).Keys == m.Keys - {j};
    if j != k {
      assert (m - {k}).Keys == m.Keys - {k};
      SumRemove(m - {j}, k);
      SumRemove(m - {k}, j);
      assert m - {j} - {k} == m - {k} - {j};
    }
  }

  /** The sum of a list of sizes. */
  function SumSeq(s: seq<int>): int
    decreases |s|
  {
    if s == [] then 0 else s[0] + SumSeq(s[1..])
  }

  lemma {:induction false} SumSeqAppend(a: seq<int>, b: seq<int>)
    ensures SumSeq(a + b) == SumSeq(a) + SumSeq(b)
    decreases |a|
  {
    if a != [] {
      SumSeqAppend(a[1..], b);
      assert (a + b)[0] == a[0];
      assert (a + b)[1..] == a[1..] + b;
    } else {
      assert a + b == b;
    }
  }

  /** The values of `m` at the keys `ks`, in that order. */
  function ValuesAt<V>(m: map<string, V>, ks: seq<string>): (r: seq<V>)
    requires forall i :: 0 <= i < |ks| ==> ks[i] in m
    ensures |r| == |ks|
    ensures forall i :: 0 <= i < |ks| ==> r[i] == m[ks[i]]
    decreases |ks|
  {
    if ks == [] then [] else [m[ks[0]]] + ValuesAt(m, ks[1..])
  }

  predicate Distinct<T(==)>(s: seq<T>) {
    forall i, j :: 0 <= i < j < |s| ==> s[i] != s[j]
  }

  function Elems<T>(s: seq<T>): set<T> {
    set x | x in s
  }

  lemma {:induction false} DistinctCount<T>(s: seq<T>, x: T)
    requires Distinct(s)
    ensures multiset(s)[x] <= 1
    decreases |s|
  {
    if s != [] {
      assert s == [s[0]] + s[1..];
      assert Distinct(s[1..]) by {
        forall i, j | 0 <= i < j < |s[1..]| ensures s[1..][i] != s[1..][j] {
          assert s[1..][i] == s[i + 1] && s[1..][j] == s[j + 1];
        }
      }
      DistinctCount(s[1..], x);
      if s[0] == x {
        assert forall i :: 0 <= i < |s[1..]| ==> s[1..][i] == s[i + 1] && s[i + 1] != s[0];
        assert x !in s[1..];
      }
    }
  }

  /** An element at two positions is counted at least twice. */
  lemma RepeatedCountsTwice<T>(a: seq<T>, i: nat, j: nat)
    requires i < j < |a| && a[i] == a[j]
    ensures multiset(a)[a[i]] >= 2
  {
    var x := a[i];
    assert a == a[..i] + [x] + a[i + 1..j] + [x] + a[j + 1..];
  }

  /** A permutation of a list without repetitions has none either. */
  lemma PermutationKeepsDistinct<T>(a: seq<T>, b: seq<T>)
    requires multiset(a) == multiset(b) && Distinct(b)
    ensures Distinct(a)
  {
    forall i, j | 0 <= i < j < |a| ensures a[i] != a[j] {
      if a[i] == a[j] {
        RepeatedCountsTwice(a, i, j);
        DistinctCount(b, a[i]);
      }
    }
  }

  lemma ElemsCons<T>(s: seq<T>)
    requires s != []
    ensures Elems(s) == {s[0]} + Elems(s[1..])
  {
    forall x | x in Elems(s) ensures x == s[0] || x in Elems(s[1..]) {
      var i :| 0 <= i < |s| && s[i] == x;
      if i > 0 {
        assert s[1..][i - 1] == x;
      }
    }
  }

  lemma {:induction false} ValuesAtUnaffected(m: map<string, int>, k: string, ks: seq<string>)
    requires forall i :: 0 <= i < |ks| ==> ks[i] in m && ks[i] != k
    ensures forall i :: 0 <= i < |ks| ==> ks[i] in m - {k}
    ensures ValuesAt(m - {k}, ks) == ValuesAt(m, ks)
  {
  }

  lemma MinusCons(m: map<string, int>, ks: seq<string>)
    requires ks != []
    ensures m - {ks[0]} - Elems(ks[1..]) == m - Elems(ks)
  {
    ElemsCons(ks);
  }

  lemma DistinctTail(m: map<string, int>, ks: seq<string>)
    requires ks != [] && Distinct(ks) && forall i :: 0 <= i < |ks| ==> ks[i] in m
    ensures Distinct(ks[1..])
    ensures forall i :: 0 <= i < |ks[1..]| ==> ks[1..][i] in m && ks[1..][i] != ks[0]
  {
    forall i | 0 <= i < |ks[1..]| ensures ks[1..][i] in m && ks[1..][i] != ks[0] {
      assert ks[1..][i] == ks[i + 1];
    }
  }

  /** One deletion step of SumRemoveAll, given the total for the remaining keys. */
  lemma SumRemoveAllStep(m: map<string, int>, ks: seq<string>)
    requires ks != [] && forall i :: 0 <= i < |ks| ==> ks[i] in m && (i > 0 ==> ks[i] != ks[0])
    requires forall i :: 0 <= i < |ks[1..]| ==> ks[1..][i] in m - {ks[0]}
    requires Sum(m - {ks[0]} - Elems(ks[1..])) == Sum(m - {ks[0]}) - SumSeq(ValuesAt(m - {ks[0]}, ks[1..]))
    ensures Sum(m - Elems(ks)) == Sum(m) - SumSeq(ValuesAt(m, ks))
  {
    var k := ks[0];
    var rest := ks[1..];
    MinusCons(m, ks);
    ValuesAtUnaffected(m, k, rest);
    SumRemove(m, k);
    assert ValuesAt(m, ks)[1..] == ValuesAt(m, rest);
  }

  /** Deleting a list of distinct keys lowers the total by their values. */
  lemma {:induction false} SumRemoveAll(m: map<string, int>, ks: seq<string>)
    requires forall i :: 0 <= i < |ks| ==> ks[i] in m
    requires Distinct(ks)
    ensures Sum(m - Elems(ks)) == Sum(m) - SumSeq(ValuesAt(m, ks))
    decreases |ks|
  {
    if ks == [] {
      assert m - Elems(ks) == m;
    } else {
      DistinctTail(m, ks);
      SumRemoveAll(m - {ks[0]}, ks[1..]);
      SumRemoveAllStep(m, ks);
    }
  }

  /** The quota sweep of _purgeOverQuota (cache.go:486-497) on the sizes of the
      sorted candidates: before each candidate it stops if the running total
      is strictly below the quota, otherwise it evicts that candidate. The
      result is how many candidates are evicted. */
  function EvictCount(sizes: seq<int>, used: int, quota: int): (n: nat)
    ensures n <= |sizes|
    decreases |sizes|
  {
    if sizes == [] || used < quota then 0
    else 1 + EvictCount(sizes[1..], used - sizes[0], quota)
  }

  /** `n` is a point where the sweep stops: the total was at or above the
      quota before each of the first `n` candidates, and after them either
      the candidates ran out or the total is below the quota. */
  predicate StopsAt(sizes: seq<int>, used: int, quota: int, n: nat)
    requires n <= |sizes|
  {
    (forall j :: 0 <= j < n ==> used - SumSeq(sizes[..j]) >= quota) &&
    (n == |sizes| || used - SumSeq(sizes[..n]) < quota)
  }

  lemma {:induction false} EvictCountStops(sizes: seq<int>, used: int, quota: int)
    ensures StopsAt(sizes, used, quota, EvictCount(sizes, used, quota))
    decreases |sizes|
  {
    var n := EvictCount(sizes, used, quota);
    if sizes != [] && used >= quota {
      var tail := sizes[1..];
      var used' := used - sizes[0];
      EvictCountStops(tail, used', quota);
      forall j | 0 <= j <= n && j <= |sizes|
        ensures j >= 1 ==> SumSeq(sizes[..j]) == sizes[0] + SumSeq(tail[..j - 1])
      {
        if j >= 1 {
          assert sizes[..j][1..] == tail[..j - 1];
        }
      }
    }
  }

  /** The sweep evicts exactly the candidates before the first stop point:
      EvictCount is the one count satisfying StopsAt. */
  lemma EvictCountIsFirstStop(sizes: seq<int>, used: int, quota: int, n: nat)
    requires n <= |sizes|
    ensures n == EvictCount(sizes, used, quota) <==> StopsAt(sizes, used, quota, n)
  {
    EvictCountStops(sizes, used, quota);
  }

  /** After the sweep the total is below the quota unless every candidate
      was evicted. */
  lemma EvictCountReachesQuota(sizes: seq<int>, used: int, quota: int)
    ensures var n := EvictCount(sizes, used, quota);
            n < |sizes| ==> used - SumSeq(sizes[..n]) < quota
  {
    EvictCountStops(sizes, used, quota);
  }

  /** The stop test is strict: with two closed 100-byte files and a quota of
      100 the sweep evicts both, and it keeps one only when the quota is 101. */
  lemma QuotaStopIsStrict()
    ensures EvictCount([100, 100], 200, 100) == 2
    ensures EvictCount([100, 100], 200, 101) == 1
  {
    assert [100, 100][1..] == [100];
    assert [100][1..] == [];
  }
}

=== FILE: fingerprint.dfy ===
// The fingerprint generator (vfs/vfscache/cache.go objectFingerprint): a
// string identity for a remote object built from its size, its modification
// time when the remote supports modification times, and its hash when a hash
// type is shared with the cache and the lookup succeeds.

module Fingerprint {
  import opened Wrappers
  import Text

  /** What asking the remote for the object's hash gave. */
  datatype HashLookup =
    | NoCommonHash            // the cache and the remote share no hash type: not asked
    | HashFailed              // asked, and the call returned an error
    | HashOk(value: string)   // asked, and the call returned this hash text

  function DigitChar(d: nat): char
    requires d < 10
  {
    "0123456789"[d]
  }

  predicate IsDigit(c: char) {
    '0' <= c <= '9'
  }

  predicate AllDigits(s: string) {
    forall i :: 0 <= i < |s| ==> IsDigit(s[i])
  }

  function DigitValue(c: char): (d: nat)
    requires IsDigit(c)
    ensures d < 10 && DigitChar(d) == c
  {
    (c as int - '0' as int) as nat
  }

  /** The decimal digits of n, most significant first, with no leading zero. */
  function Digits(n: nat): (r: string)
    ensures |r| >= 1 && AllDigits(r)
    ensures n > 0 ==> r[0] != '0'
    decreases n
  {
    if n < 10 then [DigitChar(n)] else Digits(n / 10) + [DigitChar(n % 10)]
  }

  /** Go's "%d" formatting of an integer. */
  function Decimal(n: int): (r: string)
    ensures ',' !in r
  {
    if n < 0 then "-" + Digits(-n) else Digits(n)
  }

  function DigitsValue(s: string): nat
    requires |s| >= 1 && AllDigits(s)
    decreases |s|
  {
    if |s| == 1 then DigitValue(s[0])
    else DigitsValue(s[..|s| - 1]) * 10 + DigitValue(s[|s| - 1])
  }

  /** Reading a decimal back, the inverse of Decimal. */
  function ParseDecimal(s: string): Option<int>
  {
    if |s| >= 2 && s[0] == '-' && AllDigits(s[1..]) then
      Some(-(DigitsValue(s[1..]) as int))
    else if |s| >= 1 && AllDigits(s) then
      Some(DigitsValue(s))
    else
      None
  }

  lemma {:induction false} DigitsRoundTrip(n: nat)
    ensures DigitsValue(Digits(n)) == n
    decreases n
  {
    if n >= 10 {
      DigitsRoundTrip(n / 10);
      var d := Digits(n);
      assert d[..|d| - 1] == Digits(n / 10);
    }
  }

  lemma ParsesNegative(d: string)
    requires |d| >= 1 && AllDigits(d)
    ensures ParseDecimal("-" + d) == Some(-(DigitsValue(d) as int))
  {
    var s := "-" + d;
    assert s[0] == '-' && |s| >= 2;
    assert s[1..] == d;
  }

  lemma NegativeRoundTrip(m: nat)
    requires m > 0
    ensures ParseDecimal(Decimal(-(m as int))) == Some(-(m as int))
  {
    var d := Digits(m);
    assert Decimal(-(m as int)) == "-" + d;
    ParsesNegative(d);
    DigitsRoundTrip(m);
  }

  lemma NonNegativeRoundTrip(n: nat)
    ensures ParseDecimal(Decimal(n)) == Some(n)
  {
    var d := Digits(n);
    DigitsRoundTrip(n);
    assert IsDigit(d[0]);
  }

  /** Decimal formatting loses nothing: the size can be read back. */
  lemma DecimalRoundTrip(n: int)
    ensures ParseDecimal(Decimal(n)) == Some(n)
  {
    if n < 0 {
      NegativeRoundTrip(-n);
    } else {
      NonNegativeRoundTrip(n);
    }
  }

  function OptionalField(s: Option<string>): seq<string> {
    if s.Some? then [s.value] else []
  }

  /** The hash text that goes into the fingerprint: a failed lookup is
      swallowed and contributes nothing, like a missing hash type. */
  function HashText(h: HashLookup): Option<string> {
    if h.HashOk? then Some(h.value) else None
  }

  /** objectFingerprint (cache.go:104-121). `modTime` is the UTC modification
      time text, present exactly when the remote's precision is not
      "modification times not supported". */
  function ObjectFingerprint(size: int, modTime: Option<string>, hash: HashLookup): string
  {
    var out := Decimal(size);
    var out := if modTime.Some? then out + "," + modTime.value else out;
    if hash.HashOk? then out + "," + hash.value else out
  }

  /** The fingerprint is the comma-separated list of its present fields. */
  lemma FingerprintIsJoin(size: int, modTime: Option<string>, hash: HashLookup)
    ensures ObjectFingerprint(size, modTime, hash)
         == Text.Join([Decimal(size)] + OptionalField(modTime) + OptionalField(HashText(hash)), ',')
  {
    var fields := [Decimal(size)] + OptionalField(modTime) + OptionalField(HashText(hash));
    var s := Decimal(size);
    if modTime.Some? && hash.HashOk? {
      assert fields == [s, modTime.value, hash.value];
      assert fields[1..] == [modTime.value, hash.value];
      assert fields[1..][1..] == [hash.value];
      assert Text.Join(fields[1..], ',') == modTime.value + "," + hash.value;
      assert s + "," + modTime.value + "," + hash.value == s + "," + (modTime.value + "," + hash.value);
    } else if modTime.Some? {
      assert fields == [s, modTime.value];
      assert fields[1..] == [modTime.value];
    } else if hash.HashOk? {
      assert fields == [s, hash.value];
      assert fields[1..] == [hash.value];
    } else {
      assert fields == [s];
    }
  }

  /** Within one cache the modification time is either always or never part
      of the fingerprint. When the texts involved contain no comma, equal
      fingerprints mean equal size, equal modification time and equal hash
      text: any change to one of them changes the fingerprint. */
  lemma FingerprintDetectsChange(size1: int, modTime1: Option<string>, hash1: HashLookup,
                                 size2: int, modTime2: Option<string>, hash2: HashLookup)
    requires modTime1.Some? == modTime2.Some?
    requires modTime1.Some? ==> ',' !in modTime1.value && ',' !in modTime2.value
    requires hash1.HashOk? ==> ',' !in hash1.value
    requires hash2.HashOk? ==> ',' !in hash2.value
    ensures ObjectFingerprint(size1, modTime1, hash1) == ObjectFingerprint(size2, modTime2, hash2)
        <==> size1 == size2 && modTime1 == modTime2 && HashText(hash1) == HashText(hash2)
  {
    var f1 := [Decimal(size1)] + OptionalField(modTime1) + OptionalField(HashText(hash1));
    var f2 := [Decimal(size2)] + OptionalField(modTime2) + OptionalField(HashText(hash2));
    FingerprintIsJoin(size1, modTime1, hash1);
    FingerprintIsJoin(size2, modTime2, hash2);
    if ObjectFingerprint(size1, modTime1, hash1) == ObjectFingerprint(size2, modTime2, hash2) {
      Text.SplitJoin(f1, ',');
      Text.SplitJoin(f2, ',');
      assert f1 == f2;
      assert Decimal(size1) == Decimal(size2);
      DecimalRoundTrip(size1);
      DecimalRoundTrip(size2);
      var m := |OptionalField(modTime1)|;
      assert f1[1..1 + m] == OptionalField(modTime1) && f2[1..1 + m] == OptionalField(modTime2);
      assert f1[1 + m..] == OptionalField(HashText(hash1)) && f2[1 + m..] == OptionalField(HashText(hash2));
    }
  }

  /** A hash lookup that fails gives the same fingerprint as having no hash
      type at all: the error is not propagated. */
  lemma HashErrorIsSwallowed(size: int, modTime: Option<string>)
    ensures ObjectFingerprint(size, modTime, HashFailed) == ObjectFingerprint(size, modTime, NoCommonHash)
    ensures ObjectFingerprint(size, modTime, HashFailed) == Text.Join([Decimal(size)] + OptionalField(modTime), ',')
  {
    FingerprintIsJoin(size, modTime, HashFailed);
    assert [Decimal(size)] + OptionalField(modTime) + OptionalField(HashText(HashFailed))
        == [Decimal(size)] + OptionalField(modTime);
  }
}

=== FILE: paths.dfy ===
// The path mapper: the registry's key normalisation `clean`, the lexical
// path cleaning it relies on (Go's filepath.Clean with '/' as separator),
// the mapping of a remote name onto the cache tree (toOSPath), and the
// normalisation of the cache root on Windows.

module Paths {
  import Text

  /** A path as the list of its '/'-separated segments. */
  type Segments = seq<string>

  /** strings.TrimLeft(s, "/"): drops every leading slash. */
  function TrimLeft(s: string): (r: string)
    ensures r == [] || r[0] != '/'
    ensures |r| <= |s| && r == s[|s| - |r|..]
    ensures forall k :: 0 <= k < |s| - |r| ==> s[k] == '/'
    decreases |s|
  {
    if |s| > 0 && s[0] == '/' then TrimLeft(s[1..]) else s
  }

  /** strings.TrimRight(s, "/"): drops every trailing slash. */
  function TrimRight(s: string): (r: string)
    ensures r == [] || r[|r| - 1] != '/'
    ensures |r| <= |s| && r == s[..|r|]
    ensures forall k :: |r| <= k < |s| ==> s[k] == '/'
    decreases |s|
  {
    if |s| > 0 && s[|s| - 1] == '/' then TrimRight(s[..|s| - 1]) else s
  }

  /** strings.Trim(s, "/"): the string with no slash at either end. */
  function TrimSlashes(s: string): (r: string)
    ensures r == [] || (r[0] != '/' && r[|r| - 1] != '/')
  {
    var left := TrimLeft(s);
    var r := TrimRight(left);
    assert r != [] ==> r[0] == left[0];
    r
  }

  /** strings.Trim removes exactly the outer runs of '/': the result is the
      infix of `s` that starts after the leading slashes, and everything cut
      off at either end is a slash. */
  lemma TrimSlashesIsInfix(s: string)
    ensures var r := TrimSlashes(s);
            var i := |s| - |TrimLeft(s)|;
            i + |r| <= |s| && r == s[i..i + |r|] &&
            (forall k :: 0 <= k < i ==> s[k] == '/') &&
            (forall k :: i + |r| <= k < |s| ==> s[k] == '/')
  {
    var left := TrimLeft(s);
    var r := TrimRight(left);
    var i := |s| - |left|;
    assert r == s[i..i + |r|];
    forall k | i + |r| <= k < |s| ensures s[k] == '/' {
      assert s[k] == left[k - i];
    }
  }

  /** How filepath.Clean treats one segment, given the segments kept so far:
      empty segments and "." vanish, ".." removes the last kept segment unless
      that is itself "..", and a ".." with nothing left to remove is kept in a
      relative path and dropped at the root of a rooted one. */
  function Step(rooted: bool, kept: Segments, seg: string): Segments
  {
    if seg == "" || seg == "." then kept
    else if seg == ".." then
      if |kept| > 0 && kept[|kept| - 1] != ".." then kept[..|kept| - 1]
      else if rooted then kept
      else kept + [".."]
    else kept + [seg]
  }

  /** The segments `segs` processed left to right, starting from `base`. */
  function Fold(rooted: bool, base: Segments, segs: Segments): Segments
    decreases |segs|
  {
    if segs == [] then base
    else Step(rooted, Fold(rooted, base, segs[..|segs| - 1]), segs[|segs| - 1])
  }

  /** filepath.Clean on a '/'-separated path: the shortest lexically
      equivalent path, "." when nothing is left of a relative path. */
  function LexicalClean(p: string): string
  {
    var rooted := |p| > 0 && p[0] == '/';
    var body := Text.Join(Fold(rooted, [], Text.Split(p, '/')), '/');
    if rooted then "/" + body
    else if body == "" then "."
    else body
  }

  /** The registry key for an external name (vfs/vfscache/cache.go `clean`):
      trim the slashes, clean lexically, and use "" for the root. */
  function Clean(name: string): string
  {
    var cleaned := LexicalClean(TrimSlashes(name));
    if cleaned == "." || cleaned == "/" then "" else cleaned
  }

  /** The segments of the key Clean computes. */
  function KeySegments(name: string): Segments
  {
    Fold(false, [], Text.Split(TrimSlashes(name), '/'))
  }

  /** Segments of a cleaned relative path: none empty, none ".", none holding
      a slash, and ".." only as a leading run. */
  predicate Canonical(segs: Segments)
  {
    && (forall i :: 0 <= i < |segs| ==> segs[i] != "" && segs[i] != "." && '/' !in segs[i])
    && (forall i, j :: 0 <= i < j < |segs| && segs[j] == ".." ==> segs[i] == "..")
  }

  predicate NoDots(segs: Segments)
  {
    forall i :: 0 <= i < |segs| ==> segs[i] != "" && segs[i] != "."
  }

  lemma {:induction false} FoldAppend(rooted: bool, base: Segments, x: Segments, y: Segments)
    ensures Fold(rooted, base, x + y) == Fold(rooted, Fold(rooted, base, x), y)
    decreases |y|
  {
    if y == [] {
      assert x + y == x;
    } else {
      var y' := y[..|y| - 1];
      FoldAppend(rooted, base, x, y');
      assert (x + y)[..|x + y| - 1] == x + y';
      assert (x + y)[|x + y| - 1] == y[|y| - 1];
    }
  }

  lemma {:induction false} FoldNoDots(rooted: bool, base: Segments, segs: Segments)
    requires NoDots(base)
    ensures NoDots(Fold(rooted, base, segs))
    decreases |segs|
  {
    if segs != [] {
      FoldNoDots(rooted, base, segs[..|segs| - 1]);
    }
  }

  /** Cleaning a relative path yields canonical segments. */
  lemma {:induction false} FoldCanonical(base: Segments, segs: Segments)
    requires Canonical(base) && Text.FreeOf(segs, '/')
    ensures Canonical(Fold(false, base, segs))
    decreases |segs|
  {
    if segs != [] {
      var init := segs[..|segs| - 1];
      assert Text.FreeOf(init, '/') by {
        forall i | 0 <= i < |init| ensures '/' !in init[i] {
          assert init[i] == segs[i];
        }
      }
      FoldCanonical(base, init);
      var kept := Fold(false, base, init);
      var seg := segs[|segs| - 1];
      if seg == ".." && !(|kept| > 0 && kept[|kept| - 1] != "..") {
        assert forall i :: 0 <= i < |kept| ==> kept[i] == "..";
      }
    }
  }

  /** Canonical segments are already clean. */
  lemma {:induction false} FoldCanonicalIdentity(segs: Segments)
    requires Canonical(segs)
    ensures Fold(false, [], segs) == segs
    decreases |segs|
  {
    if segs != [] {
      var init := segs[..|segs| - 1];
      var last := segs[|segs| - 1];
      assert Canonical(init);
      FoldCanonicalIdentity(init);
      if last == ".." {
        assert forall i :: 0 <= i < |init| ==> init[i] == "..";
      }
      assert init + [last] == segs;
    }
  }

  lemma FoldSnoc(rooted: bool, base: Segments, t: Segments, x: string)
    ensures Fold(rooted, base, t + [x]) == Step(rooted, Fold(rooted, base, t), x)
  {
    assert (t + [x])[..|t|] == t;
  }

  /** A ".." after a segment that is not "..", "." or "" cancels it. */
  lemma FoldDropLast(rooted: bool, base: Segments, t: Segments)
    requires |t| > 0 && NoDots(t) && t[|t| - 1] != ".."
    ensures Step(rooted, Fold(rooted, base, t), "..") == Fold(rooted, base, t[..|t| - 1])
  {
    var init, last := t[..|t| - 1], t[|t| - 1];
    assert t == init + [last];
    FoldSnoc(rooted, base, init, last);
  }

  /** Cleaning the tail of a path first, as a relative path, does not change
      the result of processing it after any prefix. */
  lemma {:induction false} FoldAbsorbs(rooted: bool, base: Segments, segs: Segments)
    ensures Fold(rooted, base, segs) == Fold(rooted, base, Fold(false, [], segs))
    decreases |segs|
  {
    if segs != [] {
      var init := segs[..|segs| - 1];
      var seg := segs[|segs| - 1];
      FoldAbsorbs(rooted, base, init);
      var t := Fold(false, [], init);
      FoldNoDots(false, [], init);
      if seg == "" || seg == "." {
      } else if seg == ".." && |t| > 0 && t[|t| - 1] != ".." {
        FoldDropLast(rooted, base, t);
      } else {
        FoldSnoc(rooted, base, t, seg);
      }
    }
  }

  lemma {:induction false} FoldTrimLeft(rooted: bool, base: Segments, s: string)
    ensures Fold(rooted, base, Text.Split(TrimLeft(s), '/')) == Fold(rooted, base, Text.Split(s, '/'))
    decreases |s|
  {
    if |s| > 0 && s[0] == '/' {
      FoldTrimLeft(rooted, base, s[1..]);
      var rest := Text.Split(s[1..], '/');
      assert Text.Split(s, '/') == [""] + rest;
      FoldAppend(rooted, base, [""], rest);
      assert [""][..0] == [];
      assert Fold(rooted, base, [""]) == base;
    }
  }

  lemma {:induction false} FoldTrimRight(rooted: bool, base: Segments, s: string)
    ensures Fold(rooted, base, Text.Split(TrimRight(s), '/')) == Fold(rooted, base, Text.Split(s, '/'))
    decreases |s|
  {
    if |s| > 0 && s[|s| - 1] == '/' {
      var init := s[..|s| - 1];
      FoldTrimRight(rooted, base, init);
      assert s == init + ['/'];
      Text.SplitSnoc(init, '/');
      var fields := Text.Split(init, '/');
      assert (fields + [""])[..|fields|] == fields;
    }
  }

  /** Trimming slashes only removes empty segments, which cleaning ignores. */
  lemma FoldTrim(rooted: bool, base: Segments, s: string)
    ensures Fold(rooted, base, Text.Split(TrimSlashes(s), '/')) == Fold(rooted, base, Text.Split(s, '/'))
  {
    FoldTrimRight(rooted, base, TrimLeft(s));
    FoldTrimLeft(rooted, base, s);
  }

  /** Clean's result is its canonical key segments joined by '/'. */
  lemma CleanIsJoin(name: string)
    ensures Canonical(KeySegments(name))
    ensures Clean(name) == Text.Join(KeySegments(name), '/')
  {
    var t := TrimSlashes(name);
    var segs := KeySegments(name);
    FoldCanonical([], Text.Split(t, '/'));
    var body := Text.Join(segs, '/');
    assert LexicalClean(t) == if body == "" then "." else body;
    if segs != [] {
      Text.SplitJoin(segs, '/');
      if body == "." {
        Text.SplitWithout(".", '/');
      }
    }
  }

  /** clean maps the root spellings to the root key "". */
  lemma CleanOfRoot()
    ensures Clean("") == "" && Clean("/") == "" && Clean(".") == ""
  {
    assert TrimSlashes("/") == "";
    Text.SplitWithout(".", '/');
    assert Fold(false, [], ["."]) == [];
  }

  lemma {:induction false} TrimLeftAllSlashes(s: string)
    requires forall i :: 0 <= i < |s| ==> s[i] == '/'
    ensures TrimLeft(s) == ""
    decreases |s|
  {
    if s != [] {
      TrimLeftAllSlashes(s[1..]);
    }
  }

  /** Any string made only of slashes is the root. */
  lemma CleanOfSlashes(s: string)
    requires forall i :: 0 <= i < |s| ==> s[i] == '/'
    ensures Clean(s) == ""
  {
    TrimLeftAllSlashes(s);
    CleanOfRoot();
  }

  /** A key never begins or ends with a slash. */
  lemma CleanHasNoOuterSlash(name: string)
    ensures var key := Clean(name);
            key == "" || (key[0] != '/' && key[|key| - 1] != '/')
  {
    CleanIsJoin(name);
    var segs := KeySegments(name);
    if segs != [] {
      Text.JoinHasNoOuterSep(segs, '/');
    }
  }

  /** clean is idempotent: a key is its own key. */
  lemma CleanIdempotent(name: string)
    ensures Clean(Clean(name)) == Clean(name)
  {
    CleanIsJoin(name);
    CleanHasNoOuterSlash(name);
    var key := Clean(name);
    var segs := KeySegments(name);
    assert TrimSlashes(key) == key;
    if segs == [] {
      CleanOfRoot();
    } else {
      Text.SplitJoin(segs, '/');
      FoldCanonicalIdentity(segs);
      assert KeySegments(key) == segs;
      CleanIsJoin(key);
    }
  }

  /** toOSPath (cache.go:134-136): the cache path of a remote name is
      filepath.Join(root, name), here on the segments of the root. */
  function OsPath(root: Segments, name: string): Segments
  {
    Fold(true, root, Text.Split(name, '/'))
  }

  /** Segments of an absolute, already clean directory. */
  predicate RootedCanonical(root: Segments)
  {
    forall i :: 0 <= i < |root| ==> root[i] != "" && root[i] != "." && root[i] != ".." && '/' !in root[i]
  }

  lemma {:induction false} FoldRootedIdentity(root: Segments)
    requires RootedCanonical(root)
    ensures Fold(true, [], root) == root
    decreases |root|
  {
    if root != [] {
      var init := root[..|root| - 1];
      assert RootedCanonical(init);
      FoldRootedIdentity(init);
      assert init + [root[|root| - 1]] == root;
    }
  }

  lemma {:induction false} SplitJoinThen(fields: seq<string>, rest: string)
    requires |fields| >= 1 && Text.FreeOf(fields, '/')
    ensures Text.Split(Text.Join(fields, '/') + ['/'] + rest, '/') == fields + Text.Split(rest, '/')
    decreases |fields|
  {
    if |fields| == 1 {
      Text.SplitAtFirst(fields[0], rest, '/');
    } else {
      var head, tailFields := fields[0], fields[1..];
      assert Text.FreeOf(tailFields, '/') by {
        forall i | 0 <= i < |tailFields| ensures '/' !in tailFields[i] {
          assert tailFields[i] == fields[i + 1];
        }
      }
      var tail := Text.Join(tailFields, '/');
      SplitJoinThen(tailFields, rest);
      assert Text.Join(fields, '/') + ['/'] + rest == head + ['/'] + (tail + ['/'] + rest);
      Text.SplitAtFirst(head, tail + ['/'] + rest, '/');
      var after := Text.Split(rest, '/');
      assert [head] + (tailFields + after) == ([head] + tailFields) + after;
      assert [head] + tailFields == fields;
    }
  }

  lemma SplitRooted(s: string)
    ensures Text.Split("/" + s, '/') == [""] + Text.Split(s, '/')
  {
    assert ("/" + s)[1..] == s;
  }

  /** filepath.Clean of a rooted path: the root followed by the cleaned segments. */
  lemma LexicalCleanRooted(p: string)
    requires |p| > 0 && p[0] == '/'
    ensures LexicalClean(p) == "/" + Text.Join(Fold(true, [], Text.Split(p, '/')), '/')
  {
  }

  /** The segments of a clean root pass unchanged, then the name's are processed. */
  lemma FoldRootThen(root: Segments, tail: Segments)
    requires RootedCanonical(root)
    ensures Fold(true, [], [""] + root + tail) == Fold(true, root, tail)
  {
    FoldAppend(true, [], [""] + root, tail);
    FoldAppend(true, [], [""], root);
    assert [""][..0] == [];
    assert Fold(true, [], [""]) == [];
    FoldRootedIdentity(root);
  }

  /** Splitting "/r1/.../rn/name" gives the empty root field, the root's
      segments, then the fields of name. */
  lemma SplitJoinedPath(root: Segments, name: string)
    requires |root| >= 1 && Text.FreeOf(root, '/')
    ensures Text.Split("/" + Text.Join(root, '/') + "/" + name, '/') == [""] + root + Text.Split(name, '/')
  {
    var rest := Text.Join(root, '/') + ['/'] + name;
    assert "/" + Text.Join(root, '/') + "/" + name == "/" + rest;
    SplitJoinThen(root, name);
    SplitRooted(rest);
    var parts := Text.Split(name, '/');
    assert [""] + (root + parts) == [""] + root + parts;
  }

  /** OsPath is what filepath.Join gives for the root "/r1/.../rn" and name. */
  lemma OsPathIsJoin(root: Segments, name: string)
    requires |root| >= 1 && RootedCanonical(root)
    ensures LexicalClean("/" + Text.Join(root, '/') + "/" + name) == "/" + Text.Join(OsPath(root, name), '/')
  {
    assert Text.FreeOf(root, '/');
    SplitJoinedPath(root, name);
    LexicalCleanRooted("/" + Text.Join(root, '/') + "/" + name);
    FoldRootThen(root, Text.Split(name, '/'));
  }

  /** The cache path of a name is the cache path of its key: the registry and
      the disk agree on where an entry lives. */
  lemma OsPathOfClean(root: Segments, name: string)
    ensures OsPath(root, Clean(name)) == OsPath(root, name)
  {
    CleanIsJoin(name);
    var segs := KeySegments(name);
    FoldTrim(true, root, name);
    FoldAbsorbs(true, root, Text.Split(TrimSlashes(name), '/'));
    if segs == [] {
      assert Clean(name) == "";
      assert Text.Split("", '/') == [""];
      assert [""][..0] == [];
    } else {
      Text.SplitJoin(segs, '/');
    }
  }

  /** filepath.FromSlash: every '/' becomes the OS separator. */
  function FromSlash(s: string, sep: char): (r: string)
    ensures |r| == |s|
    ensures sep != '/' ==> '/' !in r
  {
    seq(|s|, i requires 0 <= i < |s| => if s[i] == '/' then sep else s[i])
  }

  /** strings.Replace(s, c, "", -1) for a single character c. */
  function DeleteAll(s: string, c: char): (r: string)
    ensures c !in r
    ensures |r| <= |s|
    decreases |s|
  {
    if s == [] then []
    else (if s[0] == c then [] else [s[0]]) + DeleteAll(s[1..], c)
  }

  /** Deleting c keeps every other character, with its multiplicity. */
  lemma {:induction false} DeleteAllKeeps(s: string, c: char, x: char)
    requires x != c
    ensures multiset(DeleteAll(s, c))[x] == multiset(s)[x]
    decreases |s|
  {
    if s != [] {
      DeleteAllKeeps(s[1..], c, x);
      assert s == [s[0]] + s[1..];
    }
  }

  lemma {:induction false} DeleteAllAbsent(s: string, c: char)
    ensures DeleteAll(s, c) == s <==> c !in s
    decreases |s|
  {
    if s != [] {
      DeleteAllAbsent(s[1..], c);
    }
  }

  /** Deleting distributes over concatenation, so the characters that stay
      keep their order. */
  lemma {:induction false} DeleteAllAppend(a: string, b: string, c: char)
    ensures DeleteAll(a + b, c) == DeleteAll(a, c) + DeleteAll(b, c)
    decreases |a|
  {
    if a == [] {
      assert a + b == b;
    } else {
      assert (a + b)[0] == a[0];
      assert (a + b)[1..] == a[1..] + b;
      DeleteAllAppend(a[1..], b, c);
    }
  }

  /** Strips a leading `\\?` (the Windows long-path prefix). */
  function StripLongPathPrefix(s: string): string
  {
    if |s| >= 3 && s[..3] == "\\\\?" then s[3..] else s
  }

  /** The remote root as it is placed under the cache directory
      (cache.go:47-53): separators made native, and on Windows the `\\?`
      prefix stripped and every ':' deleted. Off Windows the separator is
      '/' itself. */
  function CacheRootPart(remoteRoot: string, windows: bool): string
  {
    if windows then DeleteAll(StripLongPathPrefix(FromSlash(remoteRoot, '\\')), ':')
    else FromSlash(remoteRoot, '/')
  }

  /** With '/' as the OS separator filepath.FromSlash changes nothing. */
  lemma FromSlashUnix(s: string)
    ensures FromSlash(s, '/') == s
  {
  }

  /** Off Windows the remote root is placed under the cache directory as it
      is. */
  lemma CacheRootPartOffWindows(remoteRoot: string)
    ensures CacheRootPart(remoteRoot, false) == remoteRoot
  {
    FromSlashUnix(remoteRoot);
  }

  /** On Windows the cache root never contains a ':' and otherwise keeps the
      characters of the remote root after the prefix, each as often as
      before. */
  lemma CacheRootPartOnWindows(remoteRoot: string)
    ensures ':' !in CacheRootPart(remoteRoot, true)
    ensures var stripped := StripLongPathPrefix(FromSlash(remoteRoot, '\\'));
            forall x :: x != ':' ==> multiset(CacheRootPart(remoteRoot, true))[x] == multiset(stripped)[x]
  {
    var stripped := StripLongPathPrefix(FromSlash(remoteRoot, '\\'));
    forall x | x != ':'
      ensures multiset(CacheRootPart(remoteRoot, true))[x] == multiset(stripped)[x]
    {
      DeleteAllKeeps(stripped, ':', x);
    }
  }

  lemma NoLongPathPrefix(s: string)
    requires |s| < 3 || s[..3] != "\\\\?"
    ensures StripLongPathPrefix(s) == s
  {
  }

  /** Every character other than '/' stays where it was. */
  lemma FromSlashKeepsOthers(s: string, sep: char)
    ensures forall i :: 0 <= i < |s| && s[i] != '/' ==> FromSlash(s, sep)[i] == s[i]
  {
  }

  /** Every '/' becomes the separator. */
  lemma FromSlashReplacesSlashes(s: string, sep: char)
    ensures forall i :: 0 <= i < |s| && s[i] == '/' ==> FromSlash(s, sep)[i] == sep
  {
  }

  lemma FromSlashKeepsAbsent(s: string, sep: char, c: char)
    requires c !in s && c != sep
    ensures c !in FromSlash(s, sep)
  {
    var r := FromSlash(s, sep);
    forall i | 0 <= i < |r| ensures r[i] != c {
      assert s[i] != c;
    }
  }

  /** A Windows root without ':' and without the long-path prefix is only
      given native separators. */
  lemma CacheRootPartPlain(remoteRoot: string)
    requires ':' !in remoteRoot
    requires |remoteRoot| < 3 || FromSlash(remoteRoot, '\\')[..3] != "\\\\?"
    ensures CacheRootPart(remoteRoot, true) == FromSlash(remoteRoot, '\\')
  {
    var native := FromSlash(remoteRoot, '\\');
    NoLongPathPrefix(native);
    FromSlashKeepsAbsent(remoteRoot, '\\', ':');
    DeleteAllAbsent(native, ':');
  }

  lemma FromSlashAppend(a: string, b: string, sep: char)
    ensures FromSlash(a + b, sep) == FromSlash(a, sep) + FromSlash(b, sep)
  {
    var l := FromSlash(a + b, sep);
    var r := FromSlash(a, sep) + FromSlash(b, sep);
    forall i | 0 <= i < |l| ensures l[i] == r[i] {
      if i < |a| {
        assert (a + b)[i] == a[i];
      } else {
        assert (a + b)[i] == b[i - |a|];
      }
    }
  }

  /** A remote root in the Windows long-path form `//?/...` loses the
      prefix, whatever follows it. */
  lemma CacheRootPartLongPath(rest: string)
    ensures CacheRootPart("//?" + rest, true) == DeleteAll(FromSlash(rest, '\\'), ':')
  {
    FromSlashAppend("//?", rest, '\\');
    var prefix := FromSlash("//?", '\\');
    assert prefix == "\\\\?";
    var native := prefix + FromSlash(rest, '\\');
    assert native[..3] == prefix && native[3..] == FromSlash(rest, '\\');
  }
}

=== FILE: registry.dfy ===
// The in-memory registry of the VFS disk cache (vfs/vfscache/cache.go): the
// map from canonical names to cache items, and the sweeps that evict items
// that are too old or that take the cache over its size quota. The model is
// sequential: the locks of the source guard nothing here.

module Registry {
  import opened Wrappers
  import Paths
  import Disk
  import Eviction

  /** A file in the cache. The item's own logic lives in item.go, which is
      not part of this model; the registry needs only these four fields.
      cache.go changes an item's name (through item.rename) but only reads
      its size, access time and open count, so those are constants here. */
  class Item {
    var name: string
    const size: int
    const atime: int
    const opens: nat

    /** newItem: a fresh, unopened item for `name`. Its size and access time
        are read from the disk and the clock by item.go, so nothing is
        promised about them. */
    constructor (name: string)
      ensures this.name == name && opens == 0
    {
      this.name := name;
      size := 0;
      atime := 0;
      opens := 0;
    }

    /** item.rename, which moves the item's data and metadata files; whether
        that fails is a parameter. On success the item carries its new name. */
    method Rename(newName: string, outcome: Option<string>) returns (err: Option<string>)
      modifies this`name
      ensures err == outcome
      ensures name == if outcome.None? then newName else old(name)
    {
      err := outcome;
      if outcome.None? {
        name := newName;
      }
    }
  }

  /** cacheItems.Less (cache.go:425-437): the item at i was accessed strictly
      before the item at j. */
  predicate Less(v: seq<Item>, i: int, j: int)
    requires 0 <= i < |v| && 0 <= j < |v|
  {
    i != j && v[i].atime < v[j].atime
  }

  /** Oldest first: no item is accessed strictly before one ahead of it.
      Items with equal access times may come in either order. */
  predicate SortedByATime(v: seq<Item>)
  {
    forall i, j :: 0 <= i < j < |v| ==> !Less(v, j, i)
  }

  /** Less is a strict weak order, as sort.Sort requires of it. */
  lemma LessIsStrictWeakOrder(v: seq<Item>, i: int, j: int, k: int)
    requires 0 <= i < |v| && 0 <= j < |v| && 0 <= k < |v|
    ensures !Less(v, i, i)
    ensures Less(v, i, j) ==> !Less(v, j, i)
    ensures Less(v, i, j) && Less(v, j, k) ==> Less(v, i, k)
    ensures !Less(v, i, j) && !Less(v, j, i) && !Less(v, j, k) && !Less(v, k, j) ==>
              !Less(v, i, k) && !Less(v, k, i)
  {
  }

  /** Placing `x` between the items accessed no later than it and those
      accessed after it keeps the list oldest-first. */
  lemma InsertKeepsOrder(r: seq<Item>, x: Item, j: nat)
    requires SortedByATime(r) && j <= |r|
    requires forall i :: 0 <= i < j ==> r[i].atime <= x.atime
    requires j == |r| || x.atime < r[j].atime
    ensures SortedByATime(r[..j] + [x] + r[j..])
  {
    var t := r[..j] + [x] + r[j..];
    assert forall i :: j <= i < |r| ==> x.atime < r[i].atime by {
      forall i | j <= i < |r| ensures x.atime < r[i].atime {
        assert !Less(r, i, j);
      }
    }
    forall a, b | 0 <= a < b < |t| ensures t[a].atime <= t[b].atime {
      if b < j {
        assert !Less(r, b, a);
      } else if a > j {
        assert !Less(r, b - 1, a - 1);
      } else if a < j && b > j {
        assert !Less(r, b - 1, a);
      }
    }
  }

  /** One insertion step of the sort: `x` goes after every item accessed no
      later than it. */
  method InsertByATime(r: seq<Item>, x: Item) returns (t: seq<Item>)
    requires SortedByATime(r)
    ensures SortedByATime(t)
    ensures multiset(t) == multiset(r) + multiset{x}
  {
    var j := 0;
    while j < |r| && r[j].atime <= x.atime
      invariant 0 <= j <= |r|
      invariant forall i :: 0 <= i < j ==> r[i].atime <= x.atime
    {
      j := j + 1;
    }
    t := r[..j] + [x] + r[j..];
    InsertKeepsOrder(r, x, j);
    assert r == r[..j] + r[j..];
  }

  /** sort.Sort(items) on the candidates: the result is a permutation of the
      input in oldest-first order. */
  method SortByATime(s: seq<Item>) returns (r: seq<Item>)
    ensures multiset(r) == multiset(s)
    ensures SortedByATime(r)
  {
    r := [];
    var i := 0;
    while i < |s|
      invariant 0 <= i <= |s|
      invariant multiset(r) == multiset(s[..i])
      invariant SortedByATime(r)
    {
      r := InsertByATime(r, s[i]);
      assert s[..i + 1] == s[..i] + [s[i]];
      i := i + 1;
    }
    assert s[..|s|] == s;
  }

  /** The sizes of a list of items, in order. */
  function SizesOf(s: seq<Item>): (r: seq<int>)
    ensures |r| == |s|
    ensures forall i :: 0 <= i < |s| ==> r[i] == s[i].size
  {
    seq(|s|, i requires 0 <= i < |s| => s[i].size)
  }

  /** The names the items of `s` carry, as a set: what the sweeps delete
      from the map (`m - NamesOf(evicted)`). NameList below keeps the same
      names in order, which the accounting needs to pair each name with its
      size and to state that no name repeats; NameListElems ties the two. */
  function NamesOf(s: seq<Item>): set<string>
    reads s
  {
    set i | 0 <= i < |s| :: s[i].name
  }

  /** The size of each entry of the registry. */
  function SizeMap(m: map<string, Item>): (r: map<string, int>)
    ensures r.Keys == m.Keys
    ensures forall k :: k in m ==> r[k] == m[k].size
  {
    map k | k in m :: m[k].size
  }

  /** Every entry sits under the name its item carries. */
  ghost predicate KeyedMap(m: map<string, Item>)
    reads m.Values
  {
    forall k :: k in m ==> m[k].name == k
  }

  /** The item is closed and was last accessed before the cutoff
      (cache.go:396-400). */
  predicate Expired(item: Item, cutoff: int)
  {
    item.opens == 0 && item.atime < cutoff
  }

  /** The entries the age sweep keeps. */
  function Survivors(m: map<string, Item>, cutoff: int): (r: map<string, Item>)
    ensures forall k :: k in r <==> k in m && !Expired(m[k], cutoff)
    ensures forall k :: k in r ==> r[k] == m[k]
  {
    map k | k in m && !Expired(m[k], cutoff) :: m[k]
  }

  /** Open entries always survive the age sweep, with their item. */
  lemma SurvivorsKeepOpen(m: map<string, Item>, cutoff: int)
    ensures forall k :: k in m && m[k].opens > 0 ==> k in Survivors(m, cutoff) && Survivors(m, cutoff)[k] == m[k]
  {
  }

  /** A second age sweep with the same cutoff removes nothing more. */
  lemma SurvivorsIdempotent(m: map<string, Item>, cutoff: int)
    ensures Survivors(Survivors(m, cutoff), cutoff) == Survivors(m, cutoff)
  {
  }

  /** A later cutoff (a shorter maximum age) keeps no more entries. */
  lemma SurvivorsMonotone(m: map<string, Item>, cutoff1: int, cutoff2: int)
    requires cutoff1 <= cutoff2
    ensures Survivors(m, cutoff2).Keys <= Survivors(m, cutoff1).Keys
  {
  }

  /** The age sweep keeps every entry under its own name. */
  lemma SurvivorsKeyed(m: map<string, Item>, cutoff: int)
    requires KeyedMap(m)
    ensures KeyedMap(Survivors(m, cutoff))
  {
  }

  /** `ks` lists every closed entry of `m` exactly once. */
  predicate ClosedKeys(m: map<string, Item>, ks: seq<string>)
  {
    Eviction.Distinct(ks) &&
    (forall i :: 0 <= i < |ks| ==> ks[i] in m) &&
    (forall k :: k in m ==> (k in ks <==> m[k].opens == 0))
  }

  /** The names the items of `s` carry, in order (see NamesOf). */
  function NameList(s: seq<Item>): (r: seq<string>)
    reads s
    ensures |r| == |s|
    ensures forall i :: 0 <= i < |s| ==> r[i] == s[i].name
  {
    seq(|s|, i reads s requires 0 <= i < |s| => s[i].name)
  }

  lemma NameListElems(s: seq<Item>)
    ensures Eviction.Elems(NameList(s)) == NamesOf(s)
  {
    var r := NameList(s);
    forall n | n in NamesOf(s) ensures n in Eviction.Elems(r) {
      var i :| 0 <= i < |s| && s[i].name == n;
      assert r[i] == n;
    }
  }

  /** Under KeyedMap, every item of an ordering of the closed entries is the
      entry under its own name, and no item occurs twice. */
  lemma OrderedEntries(m: map<string, Item>, ks: seq<string>, order: seq<Item>)
    requires KeyedMap(m) && ClosedKeys(m, ks)
    requires multiset(order) == multiset(Eviction.ValuesAt(m, ks))
    ensures forall i :: 0 <= i < |order| ==> order[i].name in ks && order[i].name in m && m[order[i].name] == order[i]
    ensures Eviction.Distinct(NameList(order))
  {
    var cands := Eviction.ValuesAt(m, ks);
    forall i | 0 <= i < |order| ensures order[i].name in ks && order[i].name in m && m[order[i].name] == order[i] {
      assert order[i] in multiset(cands);
      var j :| 0 <= j < |cands| && cands[j] == order[i];
    }
    assert Eviction.Distinct(cands) by {
      forall i, j | 0 <= i < j < |cands| ensures cands[i] != cands[j] {
        assert cands[i].name == ks[i] && cands[j].name == ks[j];
      }
    }
    Eviction.PermutationKeepsDistinct(order, cands);
  }

  lemma SizesOfKeyed(m: map<string, Item>, evicted: seq<Item>)
    requires forall i :: 0 <= i < |evicted| ==> evicted[i].name in m && m[evicted[i].name] == evicted[i]
    ensures forall i :: 0 <= i < |evicted| ==> NameList(evicted)[i] in SizeMap(m)
    ensures Eviction.ValuesAt(SizeMap(m), NameList(evicted)) == SizesOf(evicted)
  {
  }

  lemma SizeMapMinus(m: map<string, Item>, gone: set<string>)
    ensures SizeMap(m - gone) == SizeMap(m) - gone
  {
  }

  /** The accounting of the quota sweep. When every entry sits under its own
      name, evicting the first `n` items of any ordering of the closed entries
      deletes only closed entries, and lowers the total size by exactly the
      sizes of the evicted items. */
  lemma EvictedTotals(m: map<string, Item>, ks: seq<string>, order: seq<Item>, n: nat)
    requires KeyedMap(m) && ClosedKeys(m, ks)
    requires multiset(order) == multiset(Eviction.ValuesAt(m, ks))
    requires n <= |order|
    ensures NamesOf(order[..n]) <= Eviction.Elems(ks)
    ensures Eviction.Sum(SizeMap(m - NamesOf(order[..n])))
         == Eviction.Sum(SizeMap(m)) - Eviction.SumSeq(SizesOf(order[..n]))
    ensures forall k :: k in m && m[k].opens > 0 ==> k !in NamesOf(order[..n])
    ensures KeyedMap(m - NamesOf(order[..n]))
  {
    OrderedEntries(m, ks, order);
    var evicted := order[..n];
    var names := NameList(evicted);
    assert names == NameList(order)[..n];
    assert Eviction.Distinct(names);
    NameListElems(evicted);
    SizesOfKeyed(m, evicted);
    Eviction.SumRemoveAll(SizeMap(m), names);
    SizeMapMinus(m, NamesOf(evicted));
  }

  /** A file or directory met by filepath.Walk, with its name relative to
      the walked root in slash form. */
  datatype WalkEntry = WalkEntry(name: string, isDir: bool)

  /** What a walk of the cache root gave: the entries visited, in order, and
      the error that stopped it, if any. */
  datatype WalkResult = WalkResult(visited: seq<WalkEntry>, failure: Option<string>)

  datatype ReloadError = CacheWalkFailed(cause: string) | MetaWalkFailed(cause: string)

  /** The keys reload registers for a list of walked entries: the canonical
      name of every entry that is not a directory. */
  function NonDirKeys(entries: seq<WalkEntry>): set<string>
    decreases |entries|
  {
    if entries == [] then {}
    else
      var last := entries[|entries| - 1];
      NonDirKeys(entries[..|entries| - 1]) + (if last.isDir then {} else {Paths.Clean(last.name)})
  }

  /** The re-keying step of Cache.Rename (cache.go:303-308), on the map. */
  function ReKeyed(m: map<string, Item>, name: string, newName: string): (r: map<string, Item>)
    ensures name in m && name != newName ==> newName in r && r[newName] == m[name] && name !in r
    ensures name in m && name == newName ==> r == m - {name}
    ensures name !in m ==> r == m
    ensures forall k :: k != name && k != newName ==> (k in r <==> k in m) && (k in r ==> r[k] == m[k])
  {
    if name in m then m[newName := m[name]] - {name} else m
  }

  /** `m` is `m0` with entries added, each a closed item under its own name. */
  ghost predicate Extends(m0: map<string, Item>, m: map<string, Item>)
    reads m.Values
  {
    (forall k :: k in m0 ==> k in m && m[k] == m0[k]) &&
    (forall k :: k in m && k !in m0 ==> m[k].name == k && m[k].opens == 0)
  }

  lemma ExtendsTransitive(m0: map<string, Item>, m1: map<string, Item>, m2: map<string, Item>)
    requires Extends(m0, m1) && Extends(m1, m2)
    ensures Extends(m0, m2)
  {
  }

  lemma NonDirKeysSnoc(entries: seq<WalkEntry>, e: WalkEntry)
    ensures NonDirKeys(entries + [e]) == NonDirKeys(entries) + NonDirKeys([e])
  {
    assert (entries + [e])[..|entries|] == entries;
    assert [e][..0] == [];
  }

  lemma ExtendsKeyed(m0: map<string, Item>, m: map<string, Item>)
    requires Extends(m0, m) && KeyedMap(m0)
    ensures KeyedMap(m)
  {
  }

  /** Every key reload registers is already in canonical form. */
  lemma {:induction false} NonDirKeysClean(entries: seq<WalkEntry>)
    ensures forall k :: k in NonDirKeys(entries) ==> Paths.Clean(k) == k
    decreases |entries|
  {
    if entries != [] {
      var last := entries[|entries| - 1];
      var init := entries[..|entries| - 1];
      NonDirKeysClean(init);
      if !last.isDir {
        Paths.CleanIdempotent(last.name);
        assert NonDirKeys(entries) == NonDirKeys(init) + {Paths.Clean(last.name)};
      }
    }
  }

  /** Every entry but the one under `key` sits under its own name. */
  ghost predicate KeyedExcept(m: map<string, Item>, key: string)
    reads m.Values
  {
    forall k :: k in m && k != key ==> m[k].name == k
  }

  /** When every entry sits under its own name, no other entry shares the
      item under `key`. */
  lemma Unaliased(m: map<string, Item>, key: string)
    requires KeyedMap(m) && key in m
    ensures forall k :: k in m && k != key ==> m[k] != m[key]
    ensures KeyedExcept(m, key)
  {
  }

  /** Re-keying an item that now carries `newName` restores KeyedMap. */
  lemma ReKeyedKeyed(m: map<string, Item>, name: string, newName: string)
    requires KeyedExcept(m, name)
    requires name in m && m[name].name == newName
    ensures KeyedMap(ReKeyed(m, name, newName))
  {
  }

  /** The part of `m` under the keys in `keys`. */
  function Restrict(m: map<string, int>, keys: set<string>): (r: map<string, int>)
    ensures r.Keys == m.Keys * keys
    ensures forall k :: k in r ==> r[k] == m[k]
  {
    map k | k in m && k in keys :: m[k]
  }

  lemma RestrictAll(m: map<string, int>)
    ensures Restrict(m, m.Keys) == m
  {
  }

  lemma RestrictNone(m: map<string, int>)
    ensures Eviction.Sum(Restrict(m, {})) == 0
  {
    assert Restrict(m, {}) == map[];
  }

  lemma SumRestrictStep(m: map<string, int>, keys: set<string>, k: string)
    requires k in keys && keys <= m.Keys
    ensures Eviction.Sum(Restrict(m, keys)) == m[k] + Eviction.Sum(Restrict(m, keys - {k}))
  {
    Eviction.SumRemove(Restrict(m, keys), k);
    assert Restrict(m, keys) - {k} == Restrict(m, keys - {k});
  }

  /** One candidate of the quota sweep, evicted because the total is at or
      above the quota: the sweep's bookkeeping advances by one candidate. */
  lemma EvictStep(sizes: seq<int>, i: nat, used0: int, used: int, quota: int)
    requires i < |sizes| && used >= quota
    requires Eviction.EvictCount(sizes, used0, quota) == i + Eviction.EvictCount(sizes[i..], used, quota)
    requires used == used0 - Eviction.SumSeq(sizes[..i])
    ensures Eviction.EvictCount(sizes, used0, quota) == i + 1 + Eviction.EvictCount(sizes[i + 1..], used - sizes[i], quota)
    ensures used - sizes[i] == used0 - Eviction.SumSeq(sizes[..i + 1])
  {
    assert sizes[i..][1..] == sizes[i + 1..];
    assert sizes[..i + 1] == sizes[..i] + [sizes[i]];
    Eviction.SumSeqAppend(sizes[..i], [sizes[i]]);
  }

  /** Deleting one more key of a list of keys. */
  lemma MinusSnoc(m: map<string, Item>, s: seq<string>, i: nat)
    requires i < |s|
    ensures m - Eviction.Elems(s[..i + 1]) == (m - Eviction.Elems(s[..i])) - {s[i]}
  {
    assert s[..i + 1] == s[..i] + [s[i]];
    assert Eviction.Elems(s[..i + 1]) == Eviction.Elems(s[..i]) + {s[i]};
  }

  /** The sizes and names of a prefix are the prefixes of the sizes and names. */
  lemma PrefixViews(s: seq<Item>, n: nat)
    requires n <= |s|
    ensures SizesOf(s[..n]) == SizesOf(s)[..n]
    ensures NamesOf(s[..n]) == Eviction.Elems(NameList(s)[..n])
  {
    assert NameList(s[..n]) == NameList(s)[..n];
    NameListElems(s[..n]);
  }

  class Cache {
    /** The cache directory, as an OS path. */
    const root: Disk.Path
    /** Files and directories in the cache, by canonical name. */
    var items: map<string, Item>
    /** Total size of the files in the cache, as last computed. */
    var used: int

    ghost predicate Keyed()
      reads this, items.Values
    {
      KeyedMap(items)
    }

    ghost predicate KeysClean()
      reads this
    {
      forall k :: k in items ==> Paths.Clean(k) == k
    }

    constructor (root: Disk.Path)
      ensures this.root == root && items == map[] && used == 0
      ensures Keyed() && KeysClean()
    {
      this.root := root;
      items := map[];
      used := 0;
    }

    /** _get (cache.go:170-178): the item under `name`, or a new one
        registered under it. */
    method GetLocked(name: string) returns (item: Item, found: bool)
      modifies this`items
      ensures found <==> name in old(items)
      ensures found ==> item == old(items)[name] && items == old(items)
      ensures !found ==> fresh(item) && item.name == name && item.opens == 0 && items == old(items)[name := item]
      ensures old(Keyed()) ==> Keyed()
    {
      found := name in items;
      if found {
        item := items[name];
      } else {
        item := new Item(name);
        items := items[name := item];
      }
    }

    /** get (cache.go:222-228): _get on the canonical form of `name`. */
    method Get(name: string) returns (item: Item, found: bool)
      modifies this`items
      ensures found <==> Paths.Clean(name) in old(items)
      ensures found ==> item == old(items)[Paths.Clean(name)] && items == old(items)
      ensures !found ==> fresh(item) && item.name == Paths.Clean(name) && item.opens == 0
      ensures !found ==> items == old(items)[Paths.Clean(name) := item]
      ensures old(Keyed()) ==> Keyed()
    {
      item, found := GetLocked(Paths.Clean(name));
    }

    /** Item (cache.go:235-238). */
    method GetItem(name: string) returns (item: Item)
      modifies this`items
      ensures var key := Paths.Clean(name);
              key in items && items[key] == item &&
              (key in old(items) ==> items == old(items)) &&
              (key !in old(items) ==> fresh(item) && items == old(items)[key := item])
    {
      var found;
      item, found := Get(name);
    }

    /** put (cache.go:187-198): `item` goes under the canonical form of
        `name`; the item it displaced is returned, or null when there was
        none or it was `item` itself. */
    method Put(name: string, item: Item) returns (oldItem: Item?)
      modifies this`items
      ensures var key := Paths.Clean(name);
              items == old(items)[key := item] &&
              oldItem == (if key in old(items) && old(items)[key] != item then old(items)[key] else null)
    {
      var key := Paths.Clean(name);
      oldItem := if key in items then items[key] else null;
      if oldItem != item {
        items := items[key := item];
      } else {
        oldItem := null;
      }
    }

    /** Opens (cache.go:203-214): how many times the file is open, without
        registering it. */
    method Opens(name: string) returns (n: nat)
      ensures Paths.Clean(name) !in items ==> n == 0
      ensures Paths.Clean(name) in items ==> n == items[Paths.Clean(name)].opens
    {
      var key := Paths.Clean(name);
      if key !in items {
        return 0;
      }
      n := items[key].opens;
    }

    /** Exists (cache.go:243-254): the cache holds a regular file for
        `name`. The registry is not consulted. */
    predicate Exists(fs: Disk.FileSystem, io: Disk.Io, name: string)
    {
      Disk.IsRegularFile(fs, io, Paths.OsPath(root, name))
    }

    /** Spellings of a name that clean to the same key find the same file. */
    lemma ExistsIgnoresSpelling(fs: Disk.FileSystem, io: Disk.Io, name: string)
      ensures Exists(fs, io, Paths.Clean(name)) == Exists(fs, io, name)
    {
      Paths.OsPathOfClean(root, name);
    }

    /** Rename (cache.go:295-312). The item is looked up by the canonical
        name, but re-keyed under the names exactly as given. */
    method Rename(name: string, newName: string, outcome: Option<string>) returns (err: Option<string>, ghost target: Item)
      modifies this`items, items.Values`name
      ensures err == outcome
      ensures Paths.Clean(name) in old(items) ==> target == old(items)[Paths.Clean(name)]
      ensures Paths.Clean(name) !in old(items) ==> fresh(target) && target.opens == 0
      ensures outcome.None? ==> target.name == newName
      ensures outcome.Some? ==> target.name == if Paths.Clean(name) in old(items) then old(target.name) else Paths.Clean(name)
      ensures outcome.Some? ==> items == old(items)[Paths.Clean(name) := target]
      ensures outcome.None? ==> items == ReKeyed(old(items)[Paths.Clean(name) := target], name, newName)
      ensures forall it :: it in old(items.Values) && it != target ==> it.name == old(it.name)
      ensures old(Keyed()) && Paths.Clean(name) == name ==> Keyed()
    {
      ghost var keyed0 := Keyed() && Paths.Clean(name) == name;
      var item, found := Get(name);
      target := item;
      ghost var m1 := items;
      assert m1 == old(items)[Paths.Clean(name) := target];
      if keyed0 {
        Unaliased(m1, name);
      }
      err := item.Rename(newName, outcome);
      if err.Some? {
        return;
      }
      assert keyed0 ==> KeyedExcept(m1, name);
      ReKey(name, newName);
      if keyed0 {
        ReKeyedKeyed(m1, name, newName);
      }
    }

    /** The re-keying step of Rename (cache.go:303-308). */
    method ReKey(name: string, newName: string)
      modifies this`items
      ensures items == ReKeyed(old(items), name, newName)
    {
      if name in items {
        var item := items[name];
        items := items[newName := item];
        items := items - {name};
      }
    }

    /** The callback reload gives the walk: get for an entry that is not a
        directory. */
    method RegisterEntry(entry: WalkEntry)
      modifies this`items
      ensures items.Keys == old(items).Keys + NonDirKeys([entry])
      ensures Extends(old(items), items)
    {
      if !entry.isDir {
        var item, found := Get(entry.name);
      }
    }

    /** One pass of reload: the callback applied to every walked entry. */
    method RegisterWalk(entries: seq<WalkEntry>)
      modifies this`items
      ensures items.Keys == old(items).Keys + NonDirKeys(entries)
      ensures Extends(old(items), items)
    {
      ghost var m0 := items;
      var i := 0;
      while i < |entries|
        invariant 0 <= i <= |entries|
        invariant items.Keys == m0.Keys + NonDirKeys(entries[..i])
        invariant Extends(m0, items)
      {
        ghost var m1 := items;
        RegisterEntry(entries[i]);
        ExtendsTransitive(m0, m1, items);
        NonDirKeysSnoc(entries[..i], entries[i]);
        assert entries[..i + 1] == entries[..i] + [entries[i]];
        i := i + 1;
      }
      assert entries[..|entries|] == entries;
    }

    /** reload (cache.go:358-378): registers every file found on disk. Both
        passes walk the content root; the metadata root is not read. */
    method Reload(first: WalkResult, second: WalkResult) returns (err: Option<ReloadError>)
      modifies this`items
      ensures err == if first.failure.Some? then Some(CacheWalkFailed(first.failure.value))
                     else if second.failure.Some? then Some(MetaWalkFailed(second.failure.value))
                     else None
      ensures items.Keys == old(items).Keys + NonDirKeys(first.visited) +
                            (if first.failure.None? then NonDirKeys(second.visited) else {})
      ensures Extends(old(items), items)
      ensures old(Keyed()) ==> Keyed()
      ensures old(KeysClean()) ==> KeysClean()
      // The second pass over the same tree registers nothing new.
      ensures first.failure.None? && second.visited == first.visited ==>
                items.Keys == old(items).Keys + NonDirKeys(first.visited)
    {
      ghost var m0 := items;
      ghost var keyed0 := Keyed();
      ghost var clean0 := KeysClean();
      NonDirKeysClean(first.visited);
      NonDirKeysClean(second.visited);
      RegisterWalk(first.visited);
      if keyed0 {
        ExtendsKeyed(m0, items);
      }
      match first.failure {
        case Some(cause) =>
          return Some(CacheWalkFailed(cause));
        case None =>
      }
      ghost var m1 := items;
      RegisterWalk(second.visited);
      ExtendsTransitive(m0, m1, items);
      if keyed0 {
        ExtendsKeyed(m0, items);
      }
      match second.failure {
        case Some(cause) =>
          return Some(MetaWalkFailed(cause));
        case None =>
      }
      return None;
    }

    /** _purgeOld (cache.go:388-406): deletes every closed entry last
        accessed before now - maxAge, handing each deleted item to the remove
        callback once; `removed` lists those items in the order they were
        handed over, and `removedKeys` the keys they were under. */
    method PurgeOld(now: int, maxAge: int) returns (removed: seq<Item>, ghost removedKeys: seq<string>)
      modifies this`items
      ensures items == Survivors(old(items), now - maxAge)
      ensures |removed| == |removedKeys| && Eviction.Distinct(removedKeys)
      ensures forall i :: 0 <= i < |removedKeys| ==>
                removedKeys[i] in old(items) && removed[i] == old(items)[removedKeys[i]] && Expired(removed[i], now - maxAge)
      ensures forall k :: k in old(items) && Expired(old(items)[k], now - maxAge) ==> k in removedKeys
    {
      var cutoff := now - maxAge;
      ghost var m0 := items;
      var todo := items.Keys;
      removed := [];
      removedKeys := [];
      while todo != {}
        invariant todo <= m0.Keys
        invariant forall k :: k in items <==> k in m0 && (k in todo || !Expired(m0[k], cutoff))
        invariant forall k :: k in items ==> items[k] == m0[k]
        invariant |removed| == |removedKeys| && Eviction.Distinct(removedKeys)
        invariant forall i :: 0 <= i < |removedKeys| ==>
                    removedKeys[i] in m0 && removedKeys[i] !in todo &&
                    removed[i] == m0[removedKeys[i]] && Expired(removed[i], cutoff)
        invariant forall k :: k in m0 && k !in todo && Expired(m0[k], cutoff) ==> k in removedKeys
        decreases |todo|
      {
        var name :| name in todo;
        var item := items[name];
        if item.opens == 0 {
          // A closed item accessed before the cutoff goes.
          var dt := item.atime - cutoff;
          if dt < 0 {
            removed := removed + [item];
            removedKeys := removedKeys + [name];
            items := items - {name};
          }
        }
        todo := todo - {name};
      }
    }

    /** The summing loop of updateUsed (cache.go:453-459): the sizes of all
        entries added up, whatever order the map yields them in. */
    method TotalSize() returns (total: int)
      ensures total == Eviction.Sum(SizeMap(items))
    {
      ghost var sizes := SizeMap(items);
      total := 0;
      var todo := items.Keys;
      RestrictAll(sizes);
      while todo != {}
        invariant todo <= items.Keys
        invariant total + Eviction.Sum(Restrict(sizes, todo)) == Eviction.Sum(sizes)
        decreases |todo|
      {
        var name :| name in todo;
        var item := items[name];
        SumRestrictStep(sizes, todo, name);
        total := total + item.size;
        todo := todo - {name};
      }
      RestrictNone(sizes);
    }

    /** updateUsed (cache.go:449-461): recomputes the total size. */
    method UpdateUsed()
      modifies this`used
      ensures used == Eviction.Sum(SizeMap(items))
    {
      used := TotalSize();
    }

    /** The loop of _purgeOverQuota that collects the closed entries
        (cache.go:477-483), in the map's own order. */
    method CollectClosed() returns (candidates: seq<Item>, ghost candKeys: seq<string>)
      ensures ClosedKeys(items, candKeys)
      ensures candidates == Eviction.ValuesAt(items, candKeys)
    {
      candidates := [];
      candKeys := [];
      var todo := items.Keys;
      while todo != {}
        invariant todo <= items.Keys
        invariant Eviction.Distinct(candKeys)
        invariant forall i :: 0 <= i < |candKeys| ==> candKeys[i] in items && candKeys[i] !in todo
        invariant forall k :: k in items && k !in todo ==> (k in candKeys <==> items[k].opens == 0)
        invariant forall k :: k in candKeys ==> items[k].opens == 0
        invariant candidates == Eviction.ValuesAt(items, candKeys)
        decreases |todo|
      {
        var name :| name in todo;
        var item := items[name];
        if item.opens == 0 {
          candidates := candidates + [item];
          candKeys := candKeys + [name];
        }
        todo := todo - {name};
      }
    }

    /** The eviction loop of _purgeOverQuota (cache.go:486-497) over the
        sorted candidates. */
    method EvictOldest(sorted: seq<Item>, quota: int) returns (removed: seq<Item>)
      modifies this`items, this`used
      ensures removed == sorted[..Eviction.EvictCount(SizesOf(sorted), old(used), quota)]
      ensures used == old(used) - Eviction.SumSeq(SizesOf(removed))
      ensures items == old(items) - NamesOf(removed)
    {
      ghost var sizes := SizesOf(sorted);
      ghost var names := NameList(sorted);
      removed := [];
      var i := 0;
      while i < |sorted|
        invariant 0 <= i <= |sorted|
        invariant removed == sorted[..i]
        invariant used == old(used) - Eviction.SumSeq(sizes[..i])
        invariant items == old(items) - Eviction.Elems(names[..i])
        invariant Eviction.EvictCount(sizes, old(used), quota) == i + Eviction.EvictCount(sizes[i..], used, quota)
      {
        if used < quota {
          break;
        }
        var item := sorted[i];
        assert item.size == sizes[i] && item.name == names[i];
        EvictStep(sizes, i, old(used), used, quota);
        MinusSnoc(old(items), names, i);
        used := used - item.size;
        removed := removed + [item];
        items := items - {item.name};
        i := i + 1;
      }
      PrefixViews(sorted, i);
    }

    /** _purgeOverQuota (cache.go:463-498), after updateUsed. When a positive
        quota is reached, the closed entries are sorted oldest first and
        evicted in that order, deleting each under the name its item
        carries, until the total drops strictly below the quota. `order` is
        the sorted list of candidates and `candKeys` the keys they were
        collected from. */
    method PurgeOverQuota(quota: int) returns (removed: seq<Item>, ghost candKeys: seq<string>, ghost order: seq<Item>)
      modifies this`items, this`used
      ensures var used0 := old(Eviction.Sum(SizeMap(items)));
              quota <= 0 || used0 < quota ==> removed == [] && items == old(items) && used == used0
      ensures var used0 := old(Eviction.Sum(SizeMap(items)));
              quota > 0 && used0 >= quota ==>
                ClosedKeys(old(items), candKeys) &&
                multiset(order) == multiset(Eviction.ValuesAt(old(items), candKeys)) &&
                SortedByATime(order) &&
                removed == order[..Eviction.EvictCount(SizesOf(order), used0, quota)] &&
                used == used0 - Eviction.SumSeq(SizesOf(removed)) &&
                items == old(items) - NamesOf(removed)
      ensures old(Keyed()) ==> Keyed() && used == Eviction.Sum(SizeMap(items))
      ensures old(Keyed()) ==> forall k :: k in old(items) && old(items)[k].opens > 0 ==> k in items && items[k] == old(items)[k]
    {
      ghost var keyed0 := Keyed();
      UpdateUsed();
      removed := [];
      candKeys := [];
      order := [];
      if quota <= 0 || used < quota {
        return;
      }
      ghost var m0 := items;
      ghost var used1 := used;
      assert keyed0 ==> KeyedMap(m0);
      var candidates;
      candidates, candKeys := CollectClosed();
      var sorted := SortByATime(candidates);
      order := sorted;
      removed := EvictOldest(sorted, quota);
      assert keyed0 ==> KeyedMap(m0);
      if keyed0 {
        var n := |removed|;
        assert removed == sorted[..n];
        EvictedTotals(m0, candKeys, sorted, n);
        assert Eviction.Sum(SizeMap(items)) == used1 - Eviction.SumSeq(SizesOf(removed));
      }
    }

    /** clean (cache.go:501-525): nothing when the cache directory does not
        exist; otherwise the age sweep, then the quota sweep on what the age
        sweep left. `removedKeys` are the keys of the items too old, and
        `candKeys` and `order` are the quota sweep's candidates and their
        oldest-first order. */
    method Clean(rootMissing: bool, now: int, maxAge: int, maxSize: int)
      returns (tooOld: seq<Item>, overQuota: seq<Item>,
               ghost removedKeys: seq<string>, ghost candKeys: seq<string>, ghost order: seq<Item>)
      modifies this`items, this`used
      ensures rootMissing ==> tooOld == [] && overQuota == [] && items == old(items) && used == old(used)
      // The age sweep.
      ensures !rootMissing ==>
                |tooOld| == |removedKeys| && Eviction.Distinct(removedKeys) &&
                (forall i :: 0 <= i < |removedKeys| ==>
                   removedKeys[i] in old(items) && tooOld[i] == old(items)[removedKeys[i]] &&
                   Expired(tooOld[i], now - maxAge)) &&
                (forall k :: k in old(items) && Expired(old(items)[k], now - maxAge) ==> k in removedKeys)
      // The quota sweep, on the survivors of the age sweep.
      ensures var s := Survivors(old(items), now - maxAge);
              var used0 := Eviction.Sum(SizeMap(s));
              !rootMissing && (maxSize <= 0 || used0 < maxSize) ==>
                overQuota == [] && items == s && used == used0
      ensures var s := Survivors(old(items), now - maxAge);
              var used0 := Eviction.Sum(SizeMap(s));
              !rootMissing && maxSize > 0 && used0 >= maxSize ==>
                ClosedKeys(s, candKeys) &&
                multiset(order) == multiset(Eviction.ValuesAt(s, candKeys)) &&
                SortedByATime(order) &&
                overQuota == order[..Eviction.EvictCount(SizesOf(order), used0, maxSize)] &&
                used == used0 - Eviction.SumSeq(SizesOf(overQuota)) &&
                items == s - NamesOf(overQuota)
      ensures !rootMissing && old(Keyed()) ==>
                Keyed() && used == Eviction.Sum(SizeMap(items)) &&
                forall k :: k in old(items) && old(items)[k].opens > 0 ==> k in items && items[k] == old(items)[k]
    {
      tooOld, overQuota, removedKeys, candKeys, order := [], [], [], [], [];
      if rootMissing {
        return;
      }
      ghost var keyed0 := Keyed();
      tooOld, removedKeys := PurgeOld(now, maxAge);
      assert keyed0 ==> Keyed();
      overQuota, candKeys, order := PurgeOverQuota(maxSize);
    }
  }
}

=== FILE: text.dfy ===
// Small string helpers shared by the path mapper and the fingerprint generator.

module Wrappers {
  datatype Option<+T> = None | Some(value: T)
}

module Text {

  /** The fields of `s` between occurrences of `sep`, as Go's strings.Split
      produces them: empty fields are kept, so there is always one more field
      than there are separators. */
  function Split(s: string, sep: char): (r: seq<string>)
    ensures |r| >= 1
    ensures forall i :: 0 <= i < |r| ==> sep !in r[i]
    decreases |s|
  {
    if s == [] then [""]
    else
      var t := Split(s[1..], sep);
      if s[0] == sep then [""] + t else [[s[0]] + t[0]] + t[1..]
  }

  /** The fields joined with `sep` between them, as Go's strings.Join. */
  function Join(fields: seq<string>, sep: char): string
    decreases |fields|
  {
    if |fields| == 0 then ""
    else if |fields| == 1 then fields[0]
    else fields[0] + [sep] + Join(fields[1..], sep)
  }

  predicate FreeOf(fields: seq<string>, sep: char) {
    forall i :: 0 <= i < |fields| ==> sep !in fields[i]
  }

  lemma {:induction false} SplitWithout(a: string, sep: char)
    requires sep !in a
    ensures Split(a, sep) == [a]
    decreases |a|
  {
    if a != [] {
      SplitWithout(a[1..], sep);
      assert a[0] != sep;
      assert [a[0]] + a[1..] == a;
    }
  }

  /** Splitting stops at the first separator. */
  lemma {:induction false} SplitAtFirst(a: string, b: string, sep: char)
    requires sep !in a
    ensures Split(a + [sep] + b, sep) == [a] + Split(b, sep)
    decreases |a|
  {
    if a == [] {
      assert a + [sep] + b == [sep] + b;
      assert ([sep] + b)[1..] == b;
    } else {
      SplitAtFirst(a[1..], b, sep);
      assert (a + [sep] + b)[1..] == a[1..] + [sep] + b;
      assert [a[0]] + a[1..] == a;
    }
  }

  /** Splitting undoes joining when no field contains the separator. */
  lemma {:induction false} SplitJoin(fields: seq<string>, sep: char)
    requires |fields| >= 1 && FreeOf(fields, sep)
    ensures Split(Join(fields, sep), sep) == fields
    decreases |fields|
  {
    if |fields| == 1 {
      SplitWithout(fields[0], sep);
    } else {
      SplitJoin(fields[1..], sep);
      SplitAtFirst(fields[0], Join(fields[1..], sep), sep);
    }
  }

  /** A trailing separator adds one empty field at the end. */
  lemma {:induction false} SplitSnoc(s: string, sep: char)
    ensures Split(s + [sep], sep) == Split(s, sep) + [""]
    decreases |s|
  {
    if s == [] {
      assert [sep][1..] == [];
    } else {
      SplitSnoc(s[1..], sep);
      assert (s + [sep])[1..] == s[1..] + [sep];
    }
  }

  /** A joined string begins with its first field and ends with its last one. */
  lemma {:induction false} JoinEnds(fields: seq<string>, sep: char)
    requires |fields| >= 1
    ensures var j := Join(fields, sep);
            |j| >= |fields[0]| && j[..|fields[0]|] == fields[0] &&
            |j| >= |fields[|fields| - 1]| && j[|j| - |fields[|fields| - 1]|..] == fields[|fields| - 1]
    decreases |fields|
  {
    if |fields| > 1 {
      JoinEnds(fields[1..], sep);
      var rest := Join(fields[1..], sep);
      var last := fields[|fields| - 1];
      assert fields[1..][|fields[1..]| - 1] == last;
      var j := fields[0] + [sep] + rest;
      assert j[|j| - |last|..] == rest[|rest| - |last|..];
    }
  }

  /** A join of fields free of the separator, whose first and last fields
      are not empty, neither begins nor ends with the separator. */
  lemma JoinHasNoOuterSep(fields: seq<string>, sep: char)
    requires |fields| >= 1 && FreeOf(fields, sep)
    requires fields[0] != "" && fields[|fields| - 1] != ""
    ensures var j := Join(fields, sep);
            j != "" && j[0] != sep && j[|j| - 1] != sep
  {
    JoinEnds(fields, sep);
    var j := Join(fields, sep);
    var first, last := fields[0], fields[|fields| - 1];
    assert j[0] == j[..|first|][0] == first[0];
    assert j[|j| - 1] == j[|j| - |last|..][|last| - 1] == last[|last| - 1];
  }
}
